=== FILE: README.md ===
# TickTick integration for Home Assistant — a Dafny model

This project models the decision logic of the TickTick custom component for
Home Assistant and proves properties of it. The component pulls a user's
TickTick projects and tasks over the TickTick Open API. It keeps one
snapshot of them and fires bus events when tasks appear, disappear or fall
due soon. It exposes the snapshot as per-project sensors and a calendar,
and offers services that create, update, complete and delete tasks.

The model is functional:

- `Api` (`api.dfy`) models the REST client:
  - how `_request` classifies a transport answer;
  - the request headers and the JSON bodies of the write calls;
  - the endpoint paths of the write calls;
  - `get_user_info`.
- `Model` (`model.dfy`) holds the records:
  - the priority table of `const.py`;
  - `TickTickTask` and its `from_api` parser;
  - `TickTickProject` and its counts;
  - the `TickTickData` snapshot.
- `Coordinator` (`coordinator.dfy`) is one refresh of the update
  coordinator as a pure step. It takes the state (`_previous_tasks`,
  `_notified_due_soon`), the fetched records, the clock reading and the
  due-soon threshold. It returns the new state, the snapshot and the events
  ("created", "completed", "due soon"), or the failure that Home Assistant
  reports as `UpdateFailed`.
- `Calendar` (`calendar.dfy`) covers:
  - range filtering;
  - task-to-event conversion;
  - the description text;
  - the next event;
  - the calendar attributes.
- `Services` (`services.dfy`) covers the priority conversions, the choice
  of a default project for `create_task`, and the API call each service
  handler makes.
- `Sensor` (`sensor.dfy`) covers which projects get a sensor and what a
  sensor shows.
- Supporting modules:
  - `Wrappers` holds `Option` and `Result`.
  - `Text` holds decimal rendering, lower-casing, joining and splitting.
  - `Clock` holds time as integer seconds. A day is 86400 seconds.
  - `OrderedMaps` is an insertion-ordered dictionary. Assigning to an
    existing key keeps its position, as a Python `dict` does.

The date parser is a parameter `string -> Option<Time>`. The wall clock is
a parameter `now`. Whether an API call succeeds is a parameter of the
service handlers. The answers of the transport are inputs to the refresh.

## Model

| member | source | states |
|---|---|---|
| Api.Request | custom_components/ticktick/api.py:39-69 | 401 fails with the authentication error "Invalid or expired access token", and this is the only status that does. 429 fails with "Rate limit exceeded". Every other status from 400 up fails with the API error "API error <status>: <body>". 204 succeeds with no body. Every other status below 400 returns the body. A transport failure becomes the API error "Connection error: " followed by its detail. Every failure is caught as an API error. |
| Api.ApiErrorNamesStatus | custom_components/ticktick/api.py:59-61 | The message of a generic status error begins "API error " followed by the decimal status, which reads back as the status code. |
| Api.ApiErrorCarriesText | custom_components/ticktick/api.py:59-61 | After the status digits, the message of a generic status error carries ": " and then the response body unchanged. |
| Api.Headers | custom_components/ticktick/api.py:31-37 | Exactly two headers: a JSON content type and an Authorization value of "Bearer " followed by the token. |
| Api.HeadersInjective | custom_components/ticktick/api.py:31-37 | Different tokens never give the same headers. |
| Api.CreateTaskPayload | custom_components/ticktick/api.py:99-109 | Title, project id and priority are always sent. Content is sent iff it is non-empty. dueDate and isAllDay are sent together, iff the due date is non-empty. No other key is sent. |
| Api.UpdateTaskPayload | custom_components/ticktick/api.py:123-135 | id and projectId are always sent. Each optional field is sent iff it was given, even as an empty string. No other key is sent. |
| Api.SubtaskPayload | custom_components/ticktick/api.py:156-163 | Title, project id and parent id are always sent. Content is sent iff it is non-empty. No other key is sent. |
| Api.UpdateSendsEmptyStrings | custom_components/ticktick/api.py:105-135 | For the same arguments, the update body carries every field of the create body except isAllDay. It also keeps the empty content and due date that the create body drops. |
| Api.TaskPathRoundTrip | custom_components/ticktick/api.py:139-145 | The project id and task id can be read back from a task path when the project id has no slash. |
| Api.TaskPathInjective | custom_components/ticktick/api.py:141-145 | Distinct task addresses whose project ids hold no slash give distinct task paths, so completing or deleting one task never addresses another. |
| Api.GetUserInfo | custom_components/ticktick/api.py:168-172 | On success, the project count is the length of the listed projects. A request failure passes through unchanged. A 204 answer makes `len(None)` raise. |
| Text.DecimalString | custom_components/ticktick/api.py:61 | The status renders as a non-empty run of decimal digits. |
| Text.DecimalRoundTrip | custom_components/ticktick/api.py:61 | Reading the rendered digits back gives the number. |
| Text.Lower | custom_components/ticktick/services.py:110 | Lower-casing keeps the length and maps each character on its own. |
| Text.SplitJoin | custom_components/ticktick/calendar.py:154 | Splitting lines joined by a separator gives the lines back, when no line holds the separator. |
| Text.JoinStartsWith | custom_components/ticktick/calendar.py:154 | A joined text begins with its first part. |
| Text.JoinEndsWith | custom_components/ticktick/calendar.py:154 | A joined text ends with its last part. |
| Clock.TruncDiv | custom_components/ticktick/coordinator.py:239-241 | `int(a / b)` truncates toward zero. For non-negative `a` it is floor division; for negative `a` it rounds up. |
| OrderedMaps.OrderedMap.Put | custom_components/ticktick/coordinator.py:167 | Assignment adds the key, sets its value and leaves other keys alone. An existing key keeps its place; a new key goes last. |
| OrderedMaps.OrderedMap.Values | custom_components/ticktick/coordinator.py:233 | The values come in key order, one per key. |
| OrderedMaps.PutAll | custom_components/ticktick/coordinator.py:160-175 | Assigning a list of pairs in turn adds exactly their keys and keeps earlier keys at the front. |
| OrderedMaps.PutAllLastWins | custom_components/ticktick/coordinator.py:167 | When a key is assigned more than once, the last assignment's value is kept. |
| OrderedMaps.LengthIsSize | custom_components/ticktick/calendar.py:162 | `len(d)` counts the keys in iteration order. |
| Model.PriorityName | custom_components/ticktick/const.py:26-31 | 1 reads as "low", 3 as "medium" and 5 as "high". Every other ordinal, 0 included, reads as "none". |
| Model.FromApi | custom_components/ticktick/coordinator.py:77-97 | Parsing fails iff `id` or `projectId` is missing, and that failure is not an API error. The due date is the parsed value of a non-empty dueDate, and absent otherwise. A record whose status is not 2 gives a task whose status is not 2. A title, priority, all-day flag or status that the record carries is kept as given; content and parent pass through unchanged. |
| Model.FromApiDefaults | custom_components/ticktick/coordinator.py:87-97 | For any record with an id and a project id, each missing key gets its default independently of the others: title "", priority 0, not all-day, status 0, and no content, due date or parent. |
| Model.FromApiBadDateIsNoDate | custom_components/ticktick/coordinator.py:80-85 | A missing, empty or unparsable due date leaves the task undated and never raises. |
| Model.FromApiRoundTrip | custom_components/ticktick/coordinator.py:77-97 | Parsing the record the API would send for a task gives the task back, whenever the date reader inverts the date writer. |
| Model.Project.OverdueCount | custom_components/ticktick/coordinator.py:44-50 | Counts exactly the positions whose task has a due date strictly before now; never more than the task count. |
| Model.Project.DueTodayCount | custom_components/ticktick/coordinator.py:52-60 | Counts exactly the positions whose task is due on today's date; never more than the task count. |
| Model.UndatedNeverCounted | custom_components/ticktick/coordinator.py:44-60 | A task without a due date is neither overdue nor due today. |
| Model.CountWhereIsIndexCount | custom_components/ticktick/coordinator.py:48-60 | The running `sum(1 for ...)` equals the number of positions that satisfy the condition. |
| Model.LookupProject | custom_components/ticktick/calendar.py:149-151 | A project is found iff there is data and the id is a key, and it is the one stored there. |
| Model.TaskValuesDistinct | custom_components/ticktick/coordinator.py:167 | Iterating a snapshot's task map never yields two tasks with the same id. |
| Coordinator.KeptIndicesSound | custom_components/ticktick/coordinator.py:160-163 | Every position the loop keeps holds a record whose status is not 2. |
| Coordinator.KeptIndicesIncreasing | custom_components/ticktick/coordinator.py:160-163 | The kept positions are listed once each, in record order. |
| Coordinator.KeptIndicesComplete | custom_components/ticktick/coordinator.py:160-163 | Every record whose status is not 2 is kept. |
| Coordinator.BuildTasks | custom_components/ticktick/coordinator.py:159-168 | Succeeds iff every record whose status is not 2 parses, and a failure is never an API error. No kept task has status 2. |
| Coordinator.BuildTasksInOrder | custom_components/ticktick/coordinator.py:159-168 | On success the j-th task is the parse of the j-th kept record: one task per record whose status is not 2, in record order. |
| Coordinator.BuildTasksMembers | custom_components/ticktick/coordinator.py:159-168 | Every task kept is the parse of a record whose status is not 2, and every such record's task is kept. |
| Coordinator.BuildProject | custom_components/ticktick/coordinator.py:146-175 | A project fails only on a missing id or a non-API error. A task fetch that raised an API error gives the project with no tasks. The name defaults to "Unknown". |
| Coordinator.BuildProjects | custom_components/ticktick/coordinator.py:146-175 | Succeeds iff every project does, one result per record in order. A failure carries the error of the first record that fails: every record before it succeeds. |
| Coordinator.Flatten | custom_components/ticktick/coordinator.py:159-168 | The flattened tasks are exactly the tasks of the projects. |
| Coordinator.TaskEntriesKeys | custom_components/ticktick/coordinator.py:167-168 | The ids assigned into the task map are the ids of the tasks. |
| Coordinator.ProjectEntriesKeys | custom_components/ticktick/coordinator.py:170 | The ids assigned into the project map are the ids of the projects. |
| Coordinator.TaskMapKeyedById | custom_components/ticktick/coordinator.py:167 | The task map files every task under its own id and holds only listed tasks. |
| Coordinator.ProjectMapFromList | custom_components/ticktick/coordinator.py:170-175 | The project map holds only listed projects, each under its own id. |
| Coordinator.SnapshotOfFacts | custom_components/ticktick/coordinator.py:142-184 | The snapshot is well formed. Its task keys are exactly the current ids. Its project keys are the project ids. Every stored value comes from the lists. |
| Coordinator.CreatedEvents | custom_components/ticktick/coordinator.py:197-211 | For a task map filed by id, the created events name exactly the ids that are current, not previous and in the map. Each event carries the payload of the task filed under its id. |
| Coordinator.CompletedEvents | custom_components/ticktick/coordinator.py:213-223 | Completed events name exactly the ids in previous minus current, stamped with now. |
| Coordinator.CompletedOncePerId | custom_components/ticktick/coordinator.py:213-223 | No id is reported completed twice in one refresh. |
| Coordinator.DueSoonEvent | custom_components/ticktick/coordinator.py:239-251 | The event carries the task's id, project id, title and due instant. Its minutes are the truncated whole minutes until due. |
| Coordinator.DueSoonMinutesBounded | custom_components/ticktick/coordinator.py:239-241 | For a task due within the threshold, the reported minutes lie between 0 and the threshold. |
| Coordinator.ScanDueSoon | custom_components/ticktick/coordinator.py:233-252 | Events go only to ids not yet notified. The notified set grows by exactly the announced ids. |
| Coordinator.ScanSound | custom_components/ticktick/coordinator.py:233-252 | Every announcement is for a listed task that has a due date with now < due <= now + threshold. |
| Coordinator.ScanComplete | custom_components/ticktick/coordinator.py:233-252 | Every listed task due within the threshold and not yet notified is announced. |
| Coordinator.ScanDistinct | custom_components/ticktick/coordinator.py:233-252 | No id is announced twice in one scan. |
| Coordinator.CheckDueSoon | custom_components/ticktick/coordinator.py:225-255 | After pruning, the notified set is a subset of the current task ids. |
| Coordinator.CheckDueSoonSound | custom_components/ticktick/coordinator.py:233-252 | Each announcement is for a task of the map that is due within the threshold and not yet notified, with minutes in range, and it is that task's due-soon event. |
| Coordinator.CheckDueSoonComplete | custom_components/ticktick/coordinator.py:233-252 | Each task of the map due within the threshold and not yet notified is announced. |
| Coordinator.CheckDueSoonExactly | custom_components/ticktick/coordinator.py:225-255 | A task of the map is announced iff it is due within the threshold and not yet notified. Each announcement is the due-soon event of the task filed under its id. |
| Coordinator.Refresh | custom_components/ticktick/coordinator.py:136-189 | Fails iff the project listing or a project's records fail. The failure keeps the listing's error or the error of the first project that fails, and its message is the `UpdateFailed` text for an API error, or the exception's own label otherwise. Otherwise the snapshot is well formed, the previous ids become the snapshot's task ids, and the notified set stays within them. |
| Coordinator.FailureMessage | custom_components/ticktick/coordinator.py:186-189 | An authentication failure reads "Authentication failed: " and any other API error "Error communicating with TickTick: ", each followed by the error's own text. Any other exception is not wrapped and keeps its own label. |
| Coordinator.FailureMessageInjective | custom_components/ticktick/coordinator.py:186-189 | Two API errors with the same `UpdateFailed` text are the same error. |
| Coordinator.Next | custom_components/ticktick/coordinator.py:177-189 | A failed refresh leaves the previous ids and the notified set as they were. A successful one sets the previous ids to the snapshot's task ids and keeps the notified set inside them. |
| Coordinator.RefreshDiff | custom_components/ticktick/coordinator.py:177-223 | Created events name exactly current minus previous. Completed events name exactly previous minus current. |
| Coordinator.RefreshTwiceQuiet | custom_components/ticktick/coordinator.py:177-223 | Refreshing again on the same data fires no created and no completed events. |
| Coordinator.DueSoonAtMostOnce | custom_components/ticktick/coordinator.py:237-255 | A task announced as due soon is in the notified set afterwards, so the next refresh does not announce it again, whatever its data, clock or threshold. |
| Coordinator.DueSoonNotRepeatedAfterFailure | custom_components/ticktick/coordinator.py:177-255 | A refresh that fails between two successful ones does not make a due-soon announcement repeat. |
| Coordinator.FirstRefreshAnnouncesAll | custom_components/ticktick/coordinator.py:121-122 | From the initial empty state, the first refresh announces every task it finds as created and nothing as completed. It announces every task due within the threshold. |
| Coordinator.RefreshUnfold | custom_components/ticktick/coordinator.py:136-184 | A successful refresh is the snapshot of the built projects, followed by the event diff and the due-soon scan. |
| Coordinator.RefreshDueSoonExactly | custom_components/ticktick/coordinator.py:181-255 | Within a refresh, a snapshot task is announced iff it is due within the threshold and was not already notified. Each announcement is the due-soon event of its snapshot task; no id is announced twice; the notified set becomes the old one plus the announced ids, cut to the snapshot's ids. |
| Coordinator.RefreshDropsCompleted | custom_components/ticktick/coordinator.py:159-168 | No task with status 2 appears in any project's list or in the flattened map. |
| Coordinator.FailedTaskFetchKeepsProject | custom_components/ticktick/coordinator.py:150-175 | A project whose task fetch raised an API error still appears in the snapshot, with an empty task list. |
| Calendar.DescriptionParts | custom_components/ticktick/calendar.py:139-152 | Up to three non-empty lines: the content first when non-empty, then "Priority: " and the capitalised priority name when it is not "none" (first line without content, second with it), and the project name last when the project exists. |
| Calendar.BuildDescription | custom_components/ticktick/calendar.py:137-154 | The description is empty iff there is no content, no known priority and no project. Otherwise it begins with the content and ends with the project line. |
| Calendar.PriorityLabel | custom_components/ticktick/calendar.py:144-146 | A known priority shows as "Low", "Medium" or "High". |
| Calendar.DescriptionLines | custom_components/ticktick/calendar.py:139-154 | Reading the description line by line gives back exactly its parts, when content and project name are single lines. |
| Calendar.TaskToEvent | custom_components/ticktick/calendar.py:108-135 | A task without a due date is refused with a non-API error. An all-day task spans its due date, one day. A timed task spans one hour from its due instant. The event covers the due instant. uid is the task id; summary is the title. |
| Calendar.CollectEvents | custom_components/ticktick/calendar.py:86-106 | Exactly the events of the listed tasks in the window, no more of them than dated tasks. |
| Calendar.CollectEventsDistinct | custom_components/ticktick/calendar.py:86-106 | Tasks with distinct ids give events with distinct uids. |
| Calendar.EventsInRange | custom_components/ticktick/calendar.py:69-106 | No data gives no events. An all-day task is included iff day(start) <= its day <= day(end). A timed task is included iff start <= due <= end. Every event comes from a snapshot task. Uids are distinct. There are no more events than dated tasks. |
| Calendar.NativeLess | custom_components/ticktick/calendar.py:57 | Starts of the same kind compare by time. A date against a datetime raises TypeError. |
| Calendar.SortFirst | custom_components/ticktick/calendar.py:56-58 | The sort as written fails iff the events mix dates and datetimes. Otherwise it yields the first of the earliest starts. |
| Calendar.EarliestIndex | custom_components/ticktick/calendar.py:56-58 | Picks the first position whose start is earliest. |
| Calendar.NextEventAsWritten | custom_components/ticktick/calendar.py:45-58 | As written: fails iff the week's events mix all-day and timed tasks. Otherwise it is absent iff the week is empty, and it is one of the week's events. |
| Calendar.NextEvent | custom_components/ticktick/calendar.py:45-58 | Absent iff the next seven days hold no event. Otherwise it is one of them, with no event starting earlier. |
| Calendar.NextEventAgrees | custom_components/ticktick/calendar.py:45-58 | Whenever the sort as written does not fail, it returns the same event as the corrected property. |
| Calendar.TwoKinds | custom_components/ticktick/calendar.py:56-58 | A list of exactly one all-day event and one later timed event mixes the two kinds, and the only event with the earliest start is the all-day one. |
| Calendar.TwoKindWeek | custom_components/ticktick/calendar.py:56-58 | Any week whose events are one all-day event and one later timed event makes the sort as written fail, while the corrected property picks the all-day event. |
| Calendar.MixedWeekCounterexample | custom_components/ticktick/calendar.py:56-58 | A week holding one all-day and one timed task makes the property as written fail. The corrected one returns the all-day event. |
| Calendar.CalendarAttributes | custom_components/ticktick/calendar.py:156-171 | Empty without data. Otherwise total_tasks is the number of tasks, projects_count the number of projects, and tasks_with_due_date counts the dated tasks and is at most total_tasks. |
| Calendar.WindowWithinDated | custom_components/ticktick/calendar.py:86-106 | No window yields more events than the dated-task count in the attributes. |
| Services.PriorityTablesInverse | custom_components/ticktick/services.py:71-76 | The name-to-ordinal table and the ordinal-to-name table invert each other. |
| Services.CreatePriority | custom_components/ticktick/services.py:101-104 | A known name gives the ordinal of that name. A missing or unknown name gives 0. |
| Services.UpdatePriority | custom_components/ticktick/services.py:179-181 | An ordinal is produced iff a non-empty known name is given, and it is that name's ordinal. |
| Services.FindInbox | custom_components/ticktick/services.py:109-112 | Finds the first project whose lower-cased name is "inbox", or reports that there is none. |
| Services.DefaultProject | custom_components/ticktick/services.py:106-120 | A requested project is kept. Without one or data, no project. Otherwise the first inbox, if its id is non-empty; otherwise the first project, if its id is non-empty; otherwise none. The result is a listed project. |
| Services.HandleCreateTask | custom_components/ticktick/services.py:90-133 | Without a coordinator, or when no project can be chosen, no call is made. Otherwise one POST to /task whose body is exactly: the title, the chosen project and the converted priority; the content iff it is non-empty; the due date and the all-day flag iff the due date is non-empty. A refresh is requested iff the call succeeded. |
| Services.HandleUpdateTask | custom_components/ticktick/services.py:167-194 | Without a coordinator no call is made. Otherwise one POST to /task/<id> whose body is exactly: the id and project; the title, content and due date each as given iff given, even when empty; and the ordinal of the priority name iff a non-empty known name was given. A refresh is requested iff the call succeeded. |
| Services.UpdateWithoutPriorityOmitsIt | custom_components/ticktick/services.py:179-191 | An update without a priority name sends no priority. |
| Services.HandleCompleteTask | custom_components/ticktick/services.py:135-149 | Without a coordinator no call is made. Otherwise one POST to the task's /complete path. A refresh is requested iff the call succeeded. |
| Services.HandleDeleteTask | custom_components/ticktick/services.py:151-165 | Without a coordinator no call is made. Otherwise one DELETE of the task's path. A refresh is requested iff the call succeeded. |
| Services.HandleCreateSubtask | custom_components/ticktick/services.py:196-217 | Without a coordinator no call is made. Otherwise one POST to /task whose body is exactly the parent, the project and the title, plus the content iff it is non-empty. A refresh is requested iff the call succeeded. |
| Services.CreateWithoutAnyProjectAborts | custom_components/ticktick/services.py:106-120 | With no requested project and no projects, create_task makes no API call. |
| Sensor.InitialSensors | custom_components/ticktick/sensor.py:28-35 | Setup makes one sensor per project, with no id twice and every project covered. |
| Sensor.SetupThenCheck | custom_components/ticktick/sensor.py:28-58 | Right after setup, checking the same data for new projects adds none: every project already has its one sensor. |
| Sensor.Untracked | custom_components/ticktick/sensor.py:50-55 | Yields exactly the keys not yet tracked, each once. |
| Sensor.CheckNewProjects | custom_components/ticktick/sensor.py:39-58 | No data adds nothing. Otherwise it adds exactly the snapshot project ids not yet tracked, each once. |
| Sensor.OneSensorPerProject | custom_components/ticktick/sensor.py:44-58 | After the check, every snapshot project has exactly one sensor and no earlier sensor is dropped. |
| Sensor.SecondCheckAddsNothing | custom_components/ticktick/sensor.py:44-58 | A second check on the same data adds nothing. |
| Sensor.SensorName | custom_components/ticktick/sensor.py:90-95 | The project's name, or "Unknown Project" when the project is gone. |
| Sensor.NativeValue | custom_components/ticktick/sensor.py:97-102 | The project's task count, or 0 when the project is gone. |
| Sensor.Available | custom_components/ticktick/sensor.py:133-136 | Available iff the last update succeeded and the project is in the snapshot. |
| Sensor.SensorAttributes | custom_components/ticktick/sensor.py:104-131 | Absent when the project is gone. Otherwise the project's id, name and colour, its task count, and its overdue and due-today counts at now, each at most the task count. There is one task entry per task, in order, carrying the task's id, title, due date, all-day flag and priority name. |
| Sensor.MissingProjectFallbacks | custom_components/ticktick/sensor.py:83-136 | A sensor whose project is gone shows every fallback together: placeholder name, value 0, unavailable, no attributes. |
| Sensor.AvailableShowsProject | custom_components/ticktick/sensor.py:90-136 | An available sensor shows its project's name, and its state equals the task count in its attributes. |

## Left out

- ISO-8601 parsing and time zones are left out. `datetime.fromisoformat` is the parameter `parse`, and all instants lie on one integer time line. The coordinator compares a naive `datetime.now()` with due dates that may be aware (coordinator.py:47, 230), which CPython rejects with TypeError; one time line cannot express that. The calendar makes both sides aware before comparing (calendar.py:81-93), which the model reads as the same time line.
- Instants are whole seconds. Sub-second parts of due dates and of `now` are not modelled.
- `isoformat()` renderings of due dates in event payloads and sensor attributes are kept as the instant itself.
- The aiohttp transport, async/await, logging, the event bus and the scheduler are left out. The transport's answers are inputs; events are returned values; `UpdateFailed` is a returned failure.
- The OAuth2 flow, the options form, application credentials and entry setup and unload are framework wiring (`config_flow.py`, `application_credentials.py`, `__init__.py`). The scan-interval bounds and the unused `include_completed` option belong to them.
- Service schemas (voluptuous) are left out. The handlers are modelled on whatever values reach them.
- `complete_subtask` is left out: it does not exist in the source files, though the tests refer to it.
- The messages of `Unexpected` failures (`KeyError: 'id'` and the like) are labels naming the exception, not Python's `str(err)` (which for a KeyError is just `'id'`). Such an exception escapes the refresh unwrapped; the model returns it as a failure carrying that label.
- A JSON `null` and a missing key are not distinguished. Both are `None`.
- A `dueDate` that is not a string makes `.replace` raise AttributeError, which `from_api` does not suppress. The model types every dueDate as a string.
- A 204 answer to `get_projects` or `get_project_with_tasks` returns `None`, which the refresh then iterates or indexes and fails on. The model lets the refresh see only lists and project records, so these answers are not represented.
- The read calls are not modelled as request paths: `get_projects` ("/project"), `get_project`, `get_project_with_tasks` ("/project/<id>/data") and `get_task` (api.py:72-87). The refresh takes their answers as inputs instead.
- `Text.Lower` and `Text.Capitalize` map only ASCII letters. Python's `str.lower` and `str.capitalize` cover all of Unicode.
- Calendar.CalendarAttributes: counts dated tasks by position in the task map, not by key. The two agree because a well-formed map lists each key once.

## Findings

| source | as written | input that shows it | evidently intended | confidence | as-written member | corrected member |
|---|---|---|---|---|---|---|
| custom_components/ticktick/calendar.py:56-58 | `event` sorts the week's events by `e.start`. That start is a `date` for all-day tasks and a `datetime` for timed tasks, and comparing the two raises TypeError. | An all-day task due at 01:00 and a timed task due at 02:00 on the same day, both within the next seven days | The earliest event of the week, comparing a date by its midnight | high; not executed | Calendar.NextEventAsWritten (exhibited by Calendar.MixedWeekCounterexample) | Calendar.NextEvent (agreement by Calendar.NextEventAgrees) |

=== FILE: api.dfy ===
/** The REST client: status classification of `_request`, the request
    headers, and the endpoint paths and JSON bodies of the write
    operations (custom_components/ticktick/api.py). */
module Api {
  import opened Wrappers
  import opened Text

  /** The exceptions the integration distinguishes. `AuthError` is the
      subclass `TickTickAuthError` of `TickTickApiError`; `Unexpected` is
      any other Python exception (KeyError, TypeError, ValueError). */
  datatype Error =
    | AuthError(message: string)
    | ApiError(message: string)
    | Unexpected(message: string)
  {
    /** Whether `except TickTickApiError` catches it: the subclass is caught too. */
    predicate IsApiError() {
      AuthError? || ApiError?
    }
  }

  /** What the HTTP transport hands back: a response with its status, its
      text and its decoded JSON body, or a client-side failure (DNS, TCP,
      TLS: `aiohttp.ClientError`). */
  datatype Reply<T> =
    | Response(status: nat, text: string, body: T)
    | ClientFailure(detail: string)

  const UnauthorizedMessage: string := "Invalid or expired access token"
  const RateLimitMessage: string := "Rate limit exceeded"

  /** `_request`'s handling of the transport's answer: `Success(None)` for
      204 No Content, `Success(Some(body))` for any other status below 400. */
  function Request<T>(reply: Reply<T>): (r: Result<Option<T>, Error>)
    ensures r.Failure? ==> r.error.IsApiError()
    ensures r.Success? <==> reply.Response? && reply.status < 400
    ensures (r.Failure? && r.error.AuthError?) <==> reply.Response? && reply.status == 401
    ensures reply.Response? && reply.status == 401 ==> r == Failure(AuthError(UnauthorizedMessage))
    ensures r == Failure(ApiError(RateLimitMessage)) <==> reply.Response? && reply.status == 429
    ensures reply.Response? && 400 <= reply.status && reply.status != 401 && reply.status != 429 ==>
              r.Failure? && r.error.ApiError? && StartsWith(r.error.message, "API error " + DecimalString(reply.status))
    ensures reply.Response? && 400 <= reply.status && reply.status != 401 && reply.status != 429 ==>
              r == Failure(ApiError("API error " + DecimalString(reply.status) + ": " + reply.text))
    ensures r == Success(None) <==> reply.Response? && reply.status == 204
    ensures r.Success? && r.value.Some? ==> reply.Response? && r.value.value == reply.body
    ensures reply.ClientFailure? ==> r.Failure? && r.error.ApiError? && StartsWith(r.error.message, "Connection error")
    ensures reply.ClientFailure? ==> r == Failure(ApiError("Connection error: " + reply.detail))
  {
    match reply
    case ClientFailure(detail) =>
      var message := "Connection error: " + detail;
      assert message[0] != RateLimitMessage[0];
      Failure(ApiError(message))
    case Response(status, text, body) =>
      if status == 401 then Failure(AuthError(UnauthorizedMessage))
      else if status == 429 then Failure(ApiError(RateLimitMessage))
      else if status >= 400 then
        var message := "API error " + DecimalString(status) + ": " + text;
        assert StartsWith(message, "API error " + DecimalString(status));
        assert message[0] != RateLimitMessage[0];
        Failure(ApiError("API error " + DecimalString(status) + ": " + text))
      else if status == 204 then Success(None)
      else Success(Some(body))
  }

  /** The status code a generic API error reports can be read back from its message. */
  lemma ApiErrorNamesStatus<T>(reply: Reply<T>)
    requires reply.Response? && 400 <= reply.status && reply.status != 401 && reply.status != 429
    ensures var m := Request(reply).error.message;
            var digits := DecimalString(reply.status);
            10 + |digits| <= |m| && AllDigits(m[10..10 + |digits|]) && DecimalValue(m[10..10 + |digits|]) == reply.status
  {
    var m := Request(reply).error.message;
    var digits := DecimalString(reply.status);
    assert m[..10 + |digits|] == "API error " + digits;
    assert m[10..10 + |digits|] == digits;
    DecimalRoundTrip(reply.status);
  }

  /** The generic status error also carries the response text, after the
      status and a ": " separator, so the text reads back from the message. */
  lemma ApiErrorCarriesText<T>(reply: Reply<T>)
    requires reply.Response? && 400 <= reply.status && reply.status != 401 && reply.status != 429
    ensures var m := Request(reply).error.message;
            var n := 12 + |DecimalString(reply.status)|;
            n <= |m| && m[n - 2..n] == ": " && m[n..] == reply.text
  {
    var m := Request(reply).error.message;
    var digits := DecimalString(reply.status);
    assert m == "API error " + digits + ": " + reply.text;
  }

  const BearerPrefix: string := "Bearer "

  /** `_headers`: a bearer credential and a JSON content type, nothing else. */
  function Headers(token: string): (h: map<string, string>)
    ensures h.Keys == {"Authorization", "Content-Type"}
    ensures h["Content-Type"] == "application/json"
    ensures StartsWith(h["Authorization"], BearerPrefix)
    ensures h["Authorization"][|BearerPrefix|..] == token
  {
    map["Authorization" := BearerPrefix + token, "Content-Type" := "application/json"]
  }

  /** Two different tokens never produce the same headers. */
  lemma HeadersInjective(a: string, b: string)
    requires Headers(a) == Headers(b)
    ensures a == b
  {
    assert Headers(a)["Authorization"][|BearerPrefix|..] == a;
  }

  // ---------------------------------------------------------------- bodies

  datatype Json = JString(str: string) | JInt(number: int) | JBool(flag: bool)

  type Payload = map<string, Json>

  /** Python truthiness of an optional string: present and non-empty. */
  predicate Truthy(s: Option<string>) {
    s.Some? && s.value != ""
  }

  /** The body `create_task` posts. */
  function CreateTaskPayload(title: string, projectId: string, content: Option<string>,
                             dueDate: Option<string>, priority: int, allDay: bool): (p: Payload)
    ensures "title" in p && p["title"] == JString(title)
    ensures "projectId" in p && p["projectId"] == JString(projectId)
    ensures "priority" in p && p["priority"] == JInt(priority)
    ensures "content" in p <==> Truthy(content)
    ensures "content" in p ==> p["content"] == JString(content.value)
    ensures "dueDate" in p <==> Truthy(dueDate)
    ensures "isAllDay" in p <==> Truthy(dueDate)
    ensures "dueDate" in p ==> p["dueDate"] == JString(dueDate.value) && p["isAllDay"] == JBool(allDay)
    ensures p.Keys <= {"title", "projectId", "priority", "content", "dueDate", "isAllDay"}
  {
    var base := map["title" := JString(title), "projectId" := JString(projectId), "priority" := JInt(priority)];
    var withContent := if Truthy(content) then base["content" := JString(content.value)] else base;
    if Truthy(dueDate) then withContent["dueDate" := JString(dueDate.value)]["isAllDay" := JBool(allDay)]
    else withContent
  }

  /** The body `update_task` posts: an optional field is sent whenever it is
      given, even as an empty string. */
  function UpdateTaskPayload(taskId: string, projectId: string, title: Option<string>,
                             content: Option<string>, dueDate: Option<string>, priority: Option<int>): (p: Payload)
    ensures "id" in p && p["id"] == JString(taskId)
    ensures "projectId" in p && p["projectId"] == JString(projectId)
    ensures "title" in p <==> title.Some?
    ensures "content" in p <==> content.Some?
    ensures "dueDate" in p <==> dueDate.Some?
    ensures "priority" in p <==> priority.Some?
    ensures title.Some? ==> p["title"] == JString(title.value)
    ensures content.Some? ==> p["content"] == JString(content.value)
    ensures dueDate.Some? ==> p["dueDate"] == JString(dueDate.value)
    ensures priority.Some? ==> p["priority"] == JInt(priority.value)
    ensures p.Keys <= {"id", "projectId", "title", "content", "dueDate", "priority"}
  {
    var base := map["id" := JString(taskId), "projectId" := JString(projectId)];
    var p1 := if title.Some? then base["title" := JString(title.value)] else base;
    var p2 := if content.Some? then p1["content" := JString(content.value)] else p1;
    var p3 := if dueDate.Some? then p2["dueDate" := JString(dueDate.value)] else p2;
    if priority.Some? then p3["priority" := JInt(priority.value)] else p3
  }

  /** The body `create_subtask` posts. */
  function SubtaskPayload(parentTaskId: string, projectId: string, title: string,
                          content: Option<string>): (p: Payload)
    ensures "title" in p && p["title"] == JString(title)
    ensures "projectId" in p && p["projectId"] == JString(projectId)
    ensures "parentId" in p && p["parentId"] == JString(parentTaskId)
    ensures "content" in p <==> Truthy(content)
    ensures "content" in p ==> p["content"] == JString(content.value)
    ensures p.Keys <= {"title", "projectId", "parentId", "content"}
  {
    var base := map["title" := JString(title), "projectId" := JString(projectId), "parentId" := JString(parentTaskId)];
    if Truthy(content) then base["content" := JString(content.value)] else base
  }

  /** For the same optional strings, `update_task` sends every field
      `create_task` sends and also the empty ones it drops. */
  lemma UpdateSendsEmptyStrings(taskId: string, projectId: string, title: string, content: Option<string>,
                                dueDate: Option<string>, priority: int, allDay: bool)
    ensures var c := CreateTaskPayload(title, projectId, content, dueDate, priority, allDay);
            var u := UpdateTaskPayload(taskId, projectId, Some(title), content, dueDate, Some(priority));
            && (forall f :: f in c && f != "isAllDay" ==> f in u && u[f] == c[f])
            && (content == Some("") ==> "content" in u && "content" !in c)
            && (dueDate == Some("") ==> "dueDate" in u && "dueDate" !in c)
  {
    var c := CreateTaskPayload(title, projectId, content, dueDate, priority, allDay);
    var u := UpdateTaskPayload(taskId, projectId, Some(title), content, dueDate, Some(priority));
    forall f | f in c && f != "isAllDay" ensures f in u && u[f] == c[f] {
      assert f == "title" || f == "projectId" || f == "priority" || f == "content" || f == "dueDate";
    }
  }

  // ------------------------------------------------------------- endpoints

  datatype Method = Post | Delete

  /** One HTTP request: verb, path below the base URL and optional JSON body. */
  datatype Call = Call(verb: Method, endpoint: string, body: Option<Payload>)

  function TaskPath(projectId: string, taskId: string): string {
    "/project/" + projectId + "/task/" + taskId
  }

  function CreateTaskCall(title: string, projectId: string, content: Option<string>,
                          dueDate: Option<string>, priority: int, allDay: bool): Call
  {
    Call(Post, "/task", Some(CreateTaskPayload(title, projectId, content, dueDate, priority, allDay)))
  }

  function UpdateTaskCall(taskId: string, projectId: string, title: Option<string>,
                          content: Option<string>, dueDate: Option<string>, priority: Option<int>): Call
  {
    Call(Post, "/task/" + taskId, Some(UpdateTaskPayload(taskId, projectId, title, content, dueDate, priority)))
  }

  function CompleteTaskCall(projectId: string, taskId: string): Call {
    Call(Post, TaskPath(projectId, taskId) + "/complete", None)
  }

  function DeleteTaskCall(projectId: string, taskId: string): Call {
    Call(Delete, TaskPath(projectId, taskId), None)
  }

  function CreateSubtaskCall(parentTaskId: string, projectId: string, title: string, content: Option<string>): Call {
    Call(Post, "/task", Some(SubtaskPayload(parentTaskId, projectId, title, content)))
  }

  /** Recovers the two identifiers from a `/project/{p}/task/{t}` path. */
  function ParseTaskPath(path: string): Option<(string, string)> {
    var prefix := "/project/";
    if !StartsWith(path, prefix) then None
    else
      var rest := path[|prefix|..];
      if '/' !in rest then None
      else
        var i := IndexOf(rest, '/');
        var tail := rest[i..];
        if !StartsWith(tail, "/task/") then None
        else Some((rest[..i], tail[6..]))
  }

  /** Task paths are unambiguous when the project id holds no slash, so
      completing or deleting one task never addresses another. */
  lemma {:induction false} TaskPathRoundTrip(projectId: string, taskId: string)
    requires '/' !in projectId
    ensures ParseTaskPath(TaskPath(projectId, taskId)) == Some((projectId, taskId))
  {
    var path := TaskPath(projectId, taskId);
    var rest := path[|"/project/"|..];
    assert StartsWith(path, "/project/");
    assert rest == projectId + ['/'] + ("task/" + taskId);
    IndexOfAfterPrefix(projectId, '/', "task/" + taskId);
    assert rest[..|projectId|] == projectId;
    assert rest[|projectId|..] == "/task/" + taskId;
  }

  lemma TaskPathInjective(p1: string, t1: string, p2: string, t2: string)
    requires '/' !in p1 && '/' !in p2
    requires TaskPath(p1, t1) == TaskPath(p2, t2)
    ensures p1 == p2 && t1 == t2
  {
    TaskPathRoundTrip(p1, t1);
    TaskPathRoundTrip(p2, t2);
  }

  const NoneHasNoLength: string := "TypeError: object of type 'NoneType' has no len()"

  /** `get_user_info`: lists the projects and reports how many there are.
      A 204 answer makes `len(None)` raise. */
  function GetUserInfo<T>(reply: Reply<seq<T>>): (r: Result<nat, Error>)
    ensures r.Success? <==> reply.Response? && reply.status < 400 && reply.status != 204
    ensures r.Success? ==> r.value == |reply.body|
    ensures r.Failure? && reply.Response? && reply.status == 204 ==> r.error == Unexpected(NoneHasNoLength)
    ensures r.Failure? && !(reply.Response? && reply.status == 204) ==> r.error == Request(reply).error
  {
    match Request(reply)
    case Failure(e) => Failure(e)
    case Success(None) => Failure(Unexpected(NoneHasNoLength))
    case Success(Some(projects)) => Success(|projects|)
  }
}

=== FILE: calendar.dfy ===
/** The calendar entity (custom_components/ticktick/calendar.py): dated
    tasks become calendar events, filtered by a window, with a description
    assembled from the task's content, priority and project. */
module Calendar {
  import opened Wrappers
  import opened Clock
  import opened Text
  import opened OrderedMaps
  import opened Model
  import Api

  /** A start or end of an event: a whole date for an all-day task, an
      instant for a timed one. */
  datatype When = Date(day: int) | Instant(at: Time)

  /** The instant a `When` begins at; a date begins at its midnight. */
  function StartKey(w: When): Time {
    match w
    case Date(d) => DayStart(d)
    case Instant(t) => t
  }

  /** Home Assistant's `CalendarEvent`, with the fields the integration sets. */
  datatype CalendarEvent = CalendarEvent(start: When, end: When, summary: string, description: string, uid: string)

  const EventWindowDays: int := 7
  const TimedEventSeconds: int := SecondsPerHour
  const NoDueDateError: string := "ValueError: Task must have a due date"
  const CompareTypeError: string := "TypeError: can't compare datetime.datetime to datetime.date"

  // ----------------------------------------------------------- description

  /** The three optional lines of `_build_description`, in order. */
  function DescriptionParts(t: Task, data: Option<Snapshot>): (parts: seq<string>)
    ensures |parts| == (if Api.Truthy(t.content) then 1 else 0)
                     + (if PriorityName(t.priority) != "none" then 1 else 0)
                     + (if LookupProject(data, t.projectId).Some? then 1 else 0)
    ensures forall i :: 0 <= i < |parts| ==> parts[i] != ""
    ensures Api.Truthy(t.content) ==> parts[0] == t.content.value
    ensures PriorityName(t.priority) != "none" ==> "Priority: " + Capitalize(PriorityName(t.priority)) in parts
    ensures PriorityName(t.priority) != "none" ==>
              parts[if Api.Truthy(t.content) then 1 else 0] == "Priority: " + Capitalize(PriorityName(t.priority))
    ensures LookupProject(data, t.projectId).Some? ==> parts[|parts| - 1] == "Project: " + LookupProject(data, t.projectId).value.name
  {
    var name := PriorityName(t.priority);
    var project := LookupProject(data, t.projectId);
    (if Api.Truthy(t.content) then [t.content.value] else [])
    + (if name != "none" then ["Priority: " + Capitalize(name)] else [])
    + (if project.Some? then ["Project: " + project.value.name] else [])
  }

  /** `_build_description`: the parts joined by newlines, or "" when there are none. */
  function BuildDescription(t: Task, data: Option<Snapshot>): (d: string)
    ensures d == "" <==> !Api.Truthy(t.content) && PriorityName(t.priority) == "none" && LookupProject(data, t.projectId).None?
    ensures Api.Truthy(t.content) ==> StartsWith(d, t.content.value)
    ensures LookupProject(data, t.projectId).Some? ==> EndsWith(d, "Project: " + LookupProject(data, t.projectId).value.name)
  {
    var parts := DescriptionParts(t, data);
    if |parts| == 0 then ""
    else
      JoinStartsWith(parts, "\n");
      JoinEndsWith(parts, "\n");
      Join(parts, "\n")
  }

  /** A lower-case word capitalises to its first letter raised. */
  lemma CapitalizeLowerWord(w: string)
    requires |w| > 0 && forall i :: 0 <= i < |w| ==> 'a' <= w[i] <= 'z'
    ensures Capitalize(w) == [UpperChar(w[0])] + w[1..]
  {
    var tail := w[1..];
    assert forall i :: 0 <= i < |tail| ==> tail[i] == w[i + 1];
    assert Lower(tail) == tail;
  }

  /** The capitalised priority names hold no line break. */
  lemma PriorityLabel(priority: int)
    requires PriorityName(priority) != "none"
    ensures Capitalize(PriorityName(priority)) in {"Low", "Medium", "High"}
    ensures '\n' !in "Priority: " + Capitalize(PriorityName(priority))
  {
    var name := PriorityName(priority);
    CapitalizeLowerWord(name);
    var shown := Capitalize(name);
    if name == "low" {
      assert shown == [UpperChar('l')] + "ow" == "Low";
    } else if name == "medium" {
      assert shown == [UpperChar('m')] + "edium" == "Medium";
    } else {
      assert shown == [UpperChar('h')] + "igh" == "High";
    }
    PriorityLineHasNoBreak(shown);
  }

  /** A priority line built from one of the three labels is a single line. */
  lemma PriorityLineHasNoBreak(shown: string)
    requires shown == "Low" || shown == "Medium" || shown == "High"
    ensures '\n' !in "Priority: " + shown
  {
    assert '\n' !in shown;
    assert '\n' !in "Priority: ";
  }

  /** Reading the description back line by line gives exactly its parts,
      when neither the content nor the project name spans several lines. */
  lemma DescriptionLines(t: Task, data: Option<Snapshot>)
    requires Api.Truthy(t.content) ==> '\n' !in t.content.value
    requires LookupProject(data, t.projectId).Some? ==> '\n' !in LookupProject(data, t.projectId).value.name
    requires BuildDescription(t, data) != ""
    ensures Split(BuildDescription(t, data), '\n') == DescriptionParts(t, data)
  {
    var parts := DescriptionParts(t, data);
    var name := PriorityName(t.priority);
    var project := LookupProject(data, t.projectId);
    var c := if Api.Truthy(t.content) then [t.content.value] else [];
    var p := if name != "none" then ["Priority: " + Capitalize(name)] else [];
    var j := if project.Some? then ["Project: " + project.value.name] else [];
    assert parts == c + p + j;
    if name != "none" {
      PriorityLabel(t.priority);
    }
    forall i | 0 <= i < |parts| ensures '\n' !in parts[i] {
      if i < |c| {
        assert parts[i] == c[i];
      } else if i < |c| + |p| {
        assert parts[i] == p[i - |c|];
      } else {
        assert parts[i] == j[i - |c| - |p|];
      }
    }
    SplitJoin(parts, '\n');
  }

  // ---------------------------------------------------------------- events

  /** `_task_to_event`: an all-day task spans its due date, a timed task
      the hour after its due instant; a task without a due date is refused. */
  function TaskToEvent(t: Task, data: Option<Snapshot>): (r: Result<CalendarEvent, Api.Error>)
    ensures r.Failure? <==> t.due.None?
    ensures r.Failure? ==> !r.error.IsApiError()
    ensures r.Success? ==> r.value.uid == t.id && r.value.summary == t.title
    ensures r.Success? ==> r.value.description == BuildDescription(t, data)
    ensures r.Success? ==> r.value.start.Date? == t.isAllDay && r.value.end.Date? == t.isAllDay
    ensures r.Success? ==> StartKey(r.value.start) <= t.due.value < StartKey(r.value.end)
    ensures r.Success? ==> StartKey(r.value.end) - StartKey(r.value.start) == if t.isAllDay then SecondsPerDay else TimedEventSeconds
    ensures r.Success? && t.isAllDay ==> r.value.start == Date(Day(t.due.value))
    ensures r.Success? && !t.isAllDay ==> r.value.start == Instant(t.due.value)
  {
    if t.due.None? then Failure(Api.Unexpected(NoDueDateError))
    else
      var due := t.due.value;
      var description := BuildDescription(t, data);
      if t.isAllDay then
        DayContains(due);
        Success(CalendarEvent(Date(Day(due)), Date(Day(due) + 1), t.title, description, t.id))
      else
        Success(CalendarEvent(Instant(due), Instant(due + TimedEventSeconds), t.title, description, t.id))
  }

  /** The event of a dated task. */
  function EventOf(t: Task, data: Option<Snapshot>): CalendarEvent
    requires t.due.Some?
  {
    TaskToEvent(t, data).value
  }

  /** The range test of `_get_events_in_range`: all-day tasks by date, timed
      tasks by instant, both ends inclusive. */
  predicate InWindow(t: Task, start: Time, end: Time) {
    && t.due.Some?
    && if t.isAllDay then Day(start) <= Day(t.due.value) <= Day(end)
       else start <= t.due.value <= end
  }

  /** The events of the tasks of `ts` that fall in the window, in task order. */
  function CollectEvents(ts: seq<Task>, data: Option<Snapshot>, start: Time, end: Time): (es: seq<CalendarEvent>)
    ensures |es| <= CountWhere(ts, HasDueDate)
    ensures forall e :: e in es ==> exists i :: 0 <= i < |ts| && InWindow(ts[i], start, end) && e == EventOf(ts[i], data)
    ensures forall i {:trigger EventOf(ts[i], data) in es} :: 0 <= i < |ts| && InWindow(ts[i], start, end) ==> EventOf(ts[i], data) in es
    decreases |ts|
  {
    if |ts| == 0 then []
    else
      var n := |ts| - 1;
      var front := CollectEvents(ts[..n], data, start, end);
      assert forall i :: 0 <= i < n ==> ts[..n][i] == ts[i];
      CollectStep(ts, data, start, end, front);
      if InWindow(ts[n], start, end) then front + [EventOf(ts[n], data)] else front
  }

  /** One step of the collecting loop: if `front` holds exactly the window's
      events of all but the last task, adding the last task's event when it
      is in the window gives exactly the window's events of all of `ts`. */
  lemma CollectStep(ts: seq<Task>, data: Option<Snapshot>, start: Time, end: Time, front: seq<CalendarEvent>)
    requires |ts| > 0
    requires forall e :: e in front ==> exists i :: 0 <= i < |ts| - 1 && InWindow(ts[i], start, end) && e == EventOf(ts[i], data)
    requires forall i :: 0 <= i < |ts| - 1 && InWindow(ts[i], start, end) ==> EventOf(ts[i], data) in front
    ensures var n := |ts| - 1;
            var es := if InWindow(ts[n], start, end) then front + [EventOf(ts[n], data)] else front;
            && (forall e :: e in es ==> exists i :: 0 <= i < |ts| && InWindow(ts[i], start, end) && e == EventOf(ts[i], data))
            && (forall i :: 0 <= i < |ts| && InWindow(ts[i], start, end) ==> EventOf(ts[i], data) in es)
  {
  }

  /** One step of the collecting loop, unfolded. */
  lemma CollectEventsLast(ts: seq<Task>, data: Option<Snapshot>, start: Time, end: Time)
    requires |ts| > 0
    ensures var n := |ts| - 1;
            var fs := CollectEvents(ts[..n], data, start, end);
            CollectEvents(ts, data, start, end) == if InWindow(ts[n], start, end) then fs + [EventOf(ts[n], data)] else fs
  {
  }

  /** No two events share a uid. */
  predicate UidsDistinct(es: seq<CalendarEvent>) {
    forall a, b :: 0 <= a < b < |es| ==> es[a].uid != es[b].uid
  }

  /** Distinct task ids give distinct event uids. */
  lemma {:induction false} CollectEventsDistinct(ts: seq<Task>, data: Option<Snapshot>, start: Time, end: Time)
    requires forall i, j :: 0 <= i < j < |ts| ==> ts[i].id != ts[j].id
    ensures UidsDistinct(CollectEvents(ts, data, start, end))
  {
    if |ts| > 0 {
      var n := |ts| - 1;
      var front := ts[..n];
      assert forall i :: 0 <= i < n ==> front[i] == ts[i];
      CollectEventsDistinct(front, data, start, end);
      var fs := CollectEvents(front, data, start, end);
      CollectEventsLast(ts, data, start, end);
      if InWindow(ts[n], start, end) {
        assert forall i :: 0 <= i < n ==> front[i].id != ts[n].id;
        UidAbsent(front, data, start, end, ts[n].id);
        UidsDistinctSnoc(fs, EventOf(ts[n], data));
      }
    }
  }

  /** An id that no task of `ts` carries is the uid of none of its events. */
  lemma UidAbsent(ts: seq<Task>, data: Option<Snapshot>, start: Time, end: Time, id: string)
    requires forall i :: 0 <= i < |ts| ==> ts[i].id != id
    ensures forall a :: 0 <= a < |CollectEvents(ts, data, start, end)| ==> CollectEvents(ts, data, start, end)[a].uid != id
  {
    var es := CollectEvents(ts, data, start, end);
    forall a | 0 <= a < |es| ensures es[a].uid != id {
      assert es[a] in es;
      var i :| 0 <= i < |ts| && InWindow(ts[i], start, end) && es[a] == EventOf(ts[i], data);
    }
  }

  /** Appending an event whose uid is new keeps the uids distinct. */
  lemma UidsDistinctSnoc(es: seq<CalendarEvent>, last: CalendarEvent)
    requires UidsDistinct(es)
    requires forall a :: 0 <= a < |es| ==> es[a].uid != last.uid
    ensures UidsDistinct(es + [last])
  {
    var all := es + [last];
    forall a, b | 0 <= a < b < |all| ensures all[a].uid != all[b].uid {
      assert all[a] == es[a];
    }
  }

  /** `_get_events_in_range`: no events without data; otherwise exactly the
      events of the tasks in the window, one per task. */
  function EventsInRange(data: Option<Snapshot>, start: Time, end: Time): (es: seq<CalendarEvent>)
    requires data.Some? ==> WellFormed(data.value)
    ensures data.None? ==> es == []
    ensures data.Some? ==> |es| <= CountWhere(data.value.tasks.Values(), HasDueDate)
    ensures data.Some? ==> forall e :: e in es ==>
              exists k :: k in data.value.tasks.entries && InWindow(data.value.tasks.entries[k], start, end)
                       && e == EventOf(data.value.tasks.entries[k], data)
    ensures data.Some? ==> forall k {:trigger EventOf(data.value.tasks.entries[k], data) in es} ::
              k in data.value.tasks.entries && InWindow(data.value.tasks.entries[k], start, end) ==>
              EventOf(data.value.tasks.entries[k], data) in es
    ensures forall a, b :: 0 <= a < b < |es| ==> es[a].uid != es[b].uid
  {
    if data.None? then []
    else
      var tasks := data.value.tasks;
      var ts := tasks.Values();
      TaskValuesDistinct(data.value);
      CollectEventsDistinct(ts, data, start, end);
      CollectOverKeys(tasks, data, start, end);
      CollectEvents(ts, data, start, end)
  }

  /** Collecting over the values of a dictionary reaches every entry in the
      window, and only those. */
  lemma CollectOverKeys(tasks: OrderedMap<string, Task>, data: Option<Snapshot>, start: Time, end: Time)
    requires tasks.Valid()
    ensures var es := CollectEvents(tasks.Values(), data, start, end);
            && (forall e :: e in es ==>
                  exists k :: k in tasks.entries && InWindow(tasks.entries[k], start, end) && e == EventOf(tasks.entries[k], data))
            && (forall k {:trigger EventOf(tasks.entries[k], data) in es} ::
                  k in tasks.entries && InWindow(tasks.entries[k], start, end) ==> EventOf(tasks.entries[k], data) in es)
  {
    var ts := tasks.Values();
    var es := CollectEvents(ts, data, start, end);
    forall e | e in es ensures exists k :: k in tasks.entries && InWindow(tasks.entries[k], start, end)
                                          && e == EventOf(tasks.entries[k], data) {
      var i :| 0 <= i < |ts| && InWindow(ts[i], start, end) && e == EventOf(ts[i], data);
      assert tasks.order[i] in tasks.entries && ts[i] == tasks.entries[tasks.order[i]];
    }
    forall k | k in tasks.entries && InWindow(tasks.entries[k], start, end) ensures EventOf(tasks.entries[k], data) in es {
      var i :| 0 <= i < |tasks.order| && tasks.order[i] == k;
      assert ts[i] == tasks.entries[k];
    }
  }

  // ------------------------------------------------------------ next event

  /** The next week's events (`event` looks `timedelta(days=7)` ahead). */
  function Upcoming(data: Option<Snapshot>, now: Time): (es: seq<CalendarEvent>)
    requires data.Some? ==> WellFormed(data.value)
  {
    EventsInRange(data, now, now + EventWindowDays * SecondsPerDay)
  }

  /** Both kinds of start occur among the events. */
  predicate Mixed(es: seq<CalendarEvent>) {
    (exists i :: 0 <= i < |es| && es[i].start.Date?) && (exists i :: 0 <= i < |es| && es[i].start.Instant?)
  }

  /** `i` holds the first of the earliest starts: no event starts before it,
      and every event ahead of it starts strictly later (a stable sort keeps
      it first among equals). */
  predicate FirstEarliest(es: seq<CalendarEvent>, i: int) {
    && 0 <= i < |es|
    && (forall j :: 0 <= j < |es| ==> StartKey(es[i].start) <= StartKey(es[j].start))
    && (forall j :: 0 <= j < i ==> StartKey(es[i].start) < StartKey(es[j].start))
  }

  /** At most one position is the first of the earliest. */
  lemma FirstEarliestUnique(es: seq<CalendarEvent>, i: int, j: int)
    requires FirstEarliest(es, i) && FirstEarliest(es, j)
    ensures i == j
  {
    var ki, kj := StartKey(es[i].start), StartKey(es[j].start);
    assert ki == kj;
    assert j < i ==> ki < kj;
    assert i < j ==> kj < ki;
  }

  /** Python's `<` on two starts: dates compare by day, datetimes by
      instant, and a date against a datetime raises TypeError. */
  function NativeLess(a: When, b: When): (r: Result<bool, Api.Error>)
    ensures r.Failure? <==> a.Date? != b.Date?
    ensures r.Success? ==> (r.value <==> StartKey(a) < StartKey(b))
  {
    match (a, b)
    case (Date(x), Date(y)) => Success(x < y)
    case (Instant(x), Instant(y)) => Success(x < y)
    case _ => Failure(Api.Unexpected(CompareTypeError))
  }

  /** The element `sort(key=lambda e: e.start)` puts first, found with
      Python's own comparison: a single mixed comparison aborts the sort. */
  function SortFirst(es: seq<CalendarEvent>): (r: Result<nat, Api.Error>)
    requires |es| > 0
    ensures r.Failure? <==> Mixed(es)
    ensures r.Success? ==> FirstEarliest(es, r.value)
    ensures r.Success? ==> forall j :: 0 <= j < |es| ==> es[j].start.Date? == es[0].start.Date?
  {
    if |es| == 1 then Success(0)
    else
      var n := |es| - 1;
      var front := es[..n];
      assert forall j :: 0 <= j < n ==> front[j] == es[j];
      match SortFirst(front)
      case Failure(e) =>
        assert Mixed(es) by {
          var a :| 0 <= a < n && front[a].start.Date?;
          var b :| 0 <= b < n && front[b].start.Instant?;
          assert es[a].start.Date? && es[b].start.Instant?;
        }
        Failure(e)
      case Success(k) =>
        match NativeLess(es[n].start, es[k].start)
        case Failure(e) =>
          assert Mixed(es) by {
            if es[n].start.Date? {
              assert es[k].start.Instant?;
            } else {
              assert es[k].start.Date?;
            }
          }
          Failure(e)
        case Success(less) =>
          assert !Mixed(es) by {
            forall j | 0 <= j < |es| ensures es[j].start.Date? == es[0].start.Date? {
              if j < n {
                assert front[j].start.Date? == front[0].start.Date?;
              }
            }
          }
          Success(if less then n else k)
  }

  /** The earliest event found by instant, for any mix of kinds. */
  function EarliestIndex(es: seq<CalendarEvent>): (i: nat)
    requires |es| > 0
    ensures FirstEarliest(es, i)
  {
    if |es| == 1 then 0
    else
      var n := |es| - 1;
      var front := es[..n];
      assert forall j :: 0 <= j < n ==> front[j] == es[j];
      var k := EarliestIndex(front);
      if StartKey(es[n].start) < StartKey(es[k].start) then n else k
  }

  /** The `event` property as written: the first event of the week after
      sorting on the raw starts, which fails when the week holds both an
      all-day and a timed task. */
  function NextEventAsWritten(data: Option<Snapshot>, now: Time): (r: Result<Option<CalendarEvent>, Api.Error>)
    requires data.Some? ==> WellFormed(data.value)
    ensures r.Failure? <==> Mixed(Upcoming(data, now))
    ensures r.Success? && r.value.Some? ==> r.value.value in Upcoming(data, now)
    ensures r.Success? ==> (r.value.None? <==> |Upcoming(data, now)| == 0)
  {
    var es := Upcoming(data, now);
    if |es| == 0 then Success(None)
    else
      var i :- SortFirst(es);
      Success(Some(es[i]))
  }

  /** The `event` property with every start compared as an instant (a date
      as its midnight): the week's earliest event, first among equals. */
  function NextEvent(data: Option<Snapshot>, now: Time): (r: Option<CalendarEvent>)
    requires data.Some? ==> WellFormed(data.value)
    ensures r.None? <==> |Upcoming(data, now)| == 0
    ensures r.Some? ==> r.value in Upcoming(data, now)
    ensures r.Some? ==> forall e :: e in Upcoming(data, now) ==> StartKey(r.value.start) <= StartKey(e.start)
  {
    var es := Upcoming(data, now);
    if |es| == 0 then None
    else
      var i := EarliestIndex(es);
      assert forall e :: e in es ==> exists j :: 0 <= j < |es| && es[j] == e;
      Some(es[i])
  }

  /** Whenever the sort as written does not fail, it picks the same event
      as the corrected property. */
  lemma {:induction false} NextEventAgrees(data: Option<Snapshot>, now: Time)
    requires data.Some? ==> WellFormed(data.value)
    requires !Mixed(Upcoming(data, now))
    ensures NextEventAsWritten(data, now) == Success(NextEvent(data, now))
  {
    var es := Upcoming(data, now);
    if |es| > 0 {
      var r := SortFirst(es);
      FirstEarliestUnique(es, r.value, EarliestIndex(es));
    }
  }

  /** An all-day task due at 01:00 on day 0. */
  function SampleAllDay(): Task {
    Task("a", "p", "all day", None, Some(3600), PriorityNone, true, StatusActive, None)
  }

  /** A timed task due at 02:00 on day 0. */
  function SampleTimed(): Task {
    Task("b", "p", "timed", None, Some(7200), PriorityNone, false, StatusActive, None)
  }

  /** A snapshot holding just the two sample tasks. */
  function SampleData(): Option<Snapshot> {
    Some(Snapshot(Empty(), OrderedMap(["a", "b"], map["a" := SampleAllDay(), "b" := SampleTimed()])))
  }

  /** The sample snapshot files the two sample tasks under their ids. */
  lemma SampleFiled()
    ensures WellFormed(SampleData().value)
    ensures SampleData().value.tasks.entries.Keys == {"a", "b"}
    ensures SampleData().value.tasks.entries["a"] == SampleAllDay()
    ensures SampleData().value.tasks.entries["b"] == SampleTimed()
  {
    assert WellFormed(SampleData().value);
  }

  /** The sample week holds exactly the two sample tasks' events. */
  lemma SampleWeek()
    ensures WellFormed(SampleData().value)
    ensures var es := Upcoming(SampleData(), 0);
            && EventOf(SampleAllDay(), SampleData()) in es
            && EventOf(SampleTimed(), SampleData()) in es
            && forall e :: e in es ==> e == EventOf(SampleAllDay(), SampleData()) || e == EventOf(SampleTimed(), SampleData())
  {
    SampleWeekHolds();
    SampleWeekOnly();
  }

  /** Both sample tasks fall in the week from instant 0. */
  lemma SampleWeekHolds()
    ensures WellFormed(SampleData().value)
    ensures var es := Upcoming(SampleData(), 0);
            EventOf(SampleAllDay(), SampleData()) in es && EventOf(SampleTimed(), SampleData()) in es
  {
    SampleFiled();
    var end := 0 + EventWindowDays * SecondsPerDay;
    assert Day(3600) == 0 && Day(end) == EventWindowDays;
    assert InWindow(SampleAllDay(), 0, end) && InWindow(SampleTimed(), 0, end);
  }

  /** Nothing else is in the sample week. */
  lemma SampleWeekOnly()
    ensures WellFormed(SampleData().value)
    ensures var es := Upcoming(SampleData(), 0);
            forall e :: e in es ==> e == EventOf(SampleAllDay(), SampleData()) || e == EventOf(SampleTimed(), SampleData())
  {
    SampleFiled();
    var data := SampleData();
    var tasks := data.value.tasks.entries;
    var end := 0 + EventWindowDays * SecondsPerDay;
    forall e | e in Upcoming(data, 0) ensures e == EventOf(SampleAllDay(), data) || e == EventOf(SampleTimed(), data) {
      var k :| k in tasks && InWindow(tasks[k], 0, end) && e == EventOf(tasks[k], data);
      assert k in {"a", "b"};
    }
  }

  /** A week of one all-day and one timed event, the all-day one starting
      first: the sort as written fails, the corrected property picks the
      all-day event. */
  lemma TwoKindWeek(data: Option<Snapshot>, now: Time, ea: CalendarEvent, eb: CalendarEvent)
    requires data.Some? ==> WellFormed(data.value)
    requires var es := Upcoming(data, now);
             && ea in es && eb in es && (forall e :: e in es ==> e == ea || e == eb)
    requires ea.start.Date? && eb.start.Instant? && StartKey(ea.start) < StartKey(eb.start)
    ensures NextEventAsWritten(data, now).Failure? && NextEvent(data, now) == Some(ea)
  {
    var es := Upcoming(data, now);
    TwoKinds(es, ea, eb);
    assert |es| > 0;
    var r := NextEvent(data, now);
    assert r.value in es;
    assert r.value == ea;
  }

  /** Events of just two kinds, the all-day one first: they are mixed, and
      the all-day event is the only one no other event starts before. */
  lemma TwoKinds(es: seq<CalendarEvent>, ea: CalendarEvent, eb: CalendarEvent)
    requires ea in es && eb in es
    requires forall e :: e in es ==> e == ea || e == eb
    requires ea.start.Date? && eb.start.Instant? && StartKey(ea.start) < StartKey(eb.start)
    ensures Mixed(es)
    ensures forall v :: v in es && (forall e :: e in es ==> StartKey(v.start) <= StartKey(e.start)) ==> v == ea
  {
    var ia :| 0 <= ia < |es| && es[ia] == ea;
    var ib :| 0 <= ib < |es| && es[ib] == eb;
    assert es[ia].start.Date? && es[ib].start.Instant?;
  }

  /** A week holding an all-day task and a timed task makes the property as
      written fail, while the corrected one yields the all-day event, whose
      date begins before the timed task is due. */
  lemma MixedWeekCounterexample()
    ensures WellFormed(SampleData().value)
    ensures NextEventAsWritten(SampleData(), 0).Failure?
    ensures NextEvent(SampleData(), 0) == Some(EventOf(SampleAllDay(), SampleData()))
  {
    SampleWeek();
    var ea := EventOf(SampleAllDay(), SampleData());
    var eb := EventOf(SampleTimed(), SampleData());
    assert ea.start == Date(0) && eb.start == Instant(7200);
    TwoKindWeek(SampleData(), 0, ea, eb);
  }

  // ------------------------------------------------------------ attributes

  /** `extra_state_attributes`: empty without data; otherwise the task and
      project totals and how many tasks carry a due date. */
  function CalendarAttributes(data: Option<Snapshot>): (attrs: map<string, int>)
    requires data.Some? ==> WellFormed(data.value)
    ensures data.None? <==> attrs == map[]
    ensures data.Some? ==> attrs.Keys == {"total_tasks", "tasks_with_due_date", "projects_count"}
    ensures data.Some? ==> attrs["total_tasks"] == |data.value.tasks.entries|
    ensures data.Some? ==> attrs["projects_count"] == |data.value.projects.entries|
    ensures data.Some? ==> attrs["tasks_with_due_date"] == |IndicesWhere(data.value.tasks.Values(), HasDueDate)|
    ensures data.Some? ==> 0 <= attrs["tasks_with_due_date"] <= attrs["total_tasks"]
  {
    if data.None? then map[]
    else
      var s := data.value;
      var ts := s.tasks.Values();
      CountWhereIsIndexCount(ts, HasDueDate);
      LengthIsSize(s.tasks);
      map["total_tasks" := |s.tasks.entries|,
          "tasks_with_due_date" := CountWhere(ts, HasDueDate),
          "projects_count" := |s.projects.entries|]
  }

  /** The events of any window never outnumber the dated tasks. */
  lemma WindowWithinDated(data: Option<Snapshot>, start: Time, end: Time)
    requires data.Some? && WellFormed(data.value)
    ensures |EventsInRange(data, start, end)| <= CalendarAttributes(data)["tasks_with_due_date"]
  {
    CountWhereIsIndexCount(data.value.tasks.Values(), HasDueDate);
  }
}

=== FILE: clock.dfy ===
/** Time as whole seconds on one time line; a calendar day is a run of
    86400 consecutive seconds. */
module Clock {

  type Time = int

  const SecondsPerMinute: int := 60
  const SecondsPerHour: int := 3600
  const SecondsPerDay: int := 86400

  /** The calendar date of an instant (`datetime.date()`), as a day number. */
  function Day(t: Time): int {
    t / SecondsPerDay
  }

  /** The first instant of a day (midnight). */
  function DayStart(d: int): Time {
    d * SecondsPerDay
  }

  lemma DayContains(t: Time)
    ensures DayStart(Day(t)) <= t < DayStart(Day(t) + 1)
  {
  }

  /** `int(a / b)`: division truncating toward zero. */
  function TruncDiv(a: int, b: int): (q: int)
    requires b > 0
    ensures a >= 0 ==> q == a / b
    ensures a >= 0 ==> q * b <= a < (q + 1) * b
    ensures a < 0 ==> q <= 0 && (q - 1) * b < a <= q * b
  {
    if a >= 0 then a / b else -((-a) / b)
  }
}

=== FILE: coordinator.dfy ===
/** One refresh of `TickTickDataUpdateCoordinator`: the fetched projects and
    task records become a snapshot, the task ids are diffed against the
    previous refresh to announce created and completed tasks, tasks due
    within the configured window are announced once, and the persistent
    state moves on (custom_components/ticktick/coordinator.py). */
module Coordinator {
  import opened Wrappers
  import opened Text
  import opened Clock
  import opened OrderedMaps
  import opened Model
  import Api

  // -------------------------------------------------------------- fetching

  /** A project record of `GET /project`; `None` marks a missing key. */
  datatype RawProject = RawProject(id: Option<string>, name: Option<string>, color: Option<string>)

  /** What `get_project_with_tasks` gave for one project: its task records
      (an absent "tasks" key reads as none) or the error it raised. */
  datatype TaskFetch = Fetched(records: seq<RawTask>) | FetchFailed(error: Api.Error)

  datatype ProjectFetch = ProjectFetch(project: RawProject, tasks: TaskFetch)

  /** `task_data.get("status") == 2`. */
  predicate IsCompletedRecord(r: RawTask) {
    r.status == Some(StatusCompleted)
  }

  /** Every position moved one place on. */
  function Shift(ks: seq<nat>): (r: seq<nat>)
    ensures |r| == |ks| && forall j :: 0 <= j < |ks| ==> r[j] == ks[j] + 1
  {
    seq(|ks|, j requires 0 <= j < |ks| => ks[j] + 1)
  }

  /** The positions of the records whose status is not 2, in increasing
      order: the records the inner loop of `_async_update_data` keeps. */
  function KeptIndices(records: seq<RawTask>): (ks: seq<nat>)
    ensures |ks| <= |records|
    ensures forall j :: 0 <= j < |ks| ==> ks[j] < |records|
    decreases |records|
  {
    if |records| == 0 then []
    else
      var shifted := Shift(KeptIndices(records[1..]));
      if IsCompletedRecord(records[0]) then shifted else [0] + shifted
  }

  /** Every kept position holds a record whose status is not 2. */
  lemma {:induction false} KeptIndicesSound(records: seq<RawTask>)
    ensures forall j :: 0 <= j < |KeptIndices(records)| ==>
              KeptIndices(records)[j] < |records| && !IsCompletedRecord(records[KeptIndices(records)[j]])
    decreases |records|
  {
    if |records| > 0 {
      var tail := records[1..];
      KeptIndicesSound(tail);
      var rest := KeptIndices(tail);
      var ks := KeptIndices(records);
      forall j | 0 <= j < |ks| ensures ks[j] < |records| && !IsCompletedRecord(records[ks[j]]) {
        if IsCompletedRecord(records[0]) {
          assert ks[j] == rest[j] + 1;
          assert records[ks[j]] == tail[rest[j]];
        } else if j > 0 {
          assert ks[j] == rest[j - 1] + 1;
          assert records[ks[j]] == tail[rest[j - 1]];
        }
      }
    }
  }

  /** The kept positions increase strictly. */
  lemma {:induction false} KeptIndicesIncreasing(records: seq<RawTask>)
    ensures forall j, k :: 0 <= j < k < |KeptIndices(records)| ==> KeptIndices(records)[j] < KeptIndices(records)[k]
    decreases |records|
  {
    if |records| > 0 {
      KeptIndicesIncreasing(records[1..]);
      var rest := KeptIndices(records[1..]);
      var ks := KeptIndices(records);
      forall j, k | 0 <= j < k < |ks| ensures ks[j] < ks[k] {
        if IsCompletedRecord(records[0]) {
          assert ks[j] == rest[j] + 1 && ks[k] == rest[k] + 1;
        } else if j > 0 {
          assert ks[j] == rest[j - 1] + 1 && ks[k] == rest[k - 1] + 1;
        } else {
          assert ks[j] == 0 && ks[k] == rest[k - 1] + 1;
        }
      }
    }
  }

  /** Every record whose status is not 2 is kept. */
  lemma {:induction false} KeptIndicesComplete(records: seq<RawTask>)
    ensures forall i :: 0 <= i < |records| && !IsCompletedRecord(records[i]) ==> i in KeptIndices(records)
    decreases |records|
  {
    if |records| > 0 {
      var tail := records[1..];
      KeptIndicesComplete(tail);
      var rest := KeptIndices(tail);
      var shifted := Shift(rest);
      var ks := KeptIndices(records);
      forall i | 0 <= i < |records| && !IsCompletedRecord(records[i]) ensures i in ks {
        if i == 0 {
          assert ks[0] == 0;
        } else {
          assert tail[i - 1] == records[i];
          var j :| 0 <= j < |rest| && rest[j] == i - 1;
          assert shifted[j] == i;
          if IsCompletedRecord(records[0]) {
            assert ks[j] == i;
          } else {
            assert ks[j + 1] == i;
          }
        }
      }
    }
  }

  /** The inner loop of `_async_update_data`: completed records are skipped
      before parsing, the rest parsed in order. */
  function BuildTasks(records: seq<RawTask>, parse: DateParser): (r: Result<seq<Task>, Api.Error>)
    ensures r.Success? <==> forall i :: 0 <= i < |records| && !IsCompletedRecord(records[i]) ==> FromApi(records[i], parse).Success?
    ensures r.Failure? ==> !r.error.IsApiError()
    ensures r.Success? ==> forall t :: t in r.value ==> t.status != StatusCompleted
    decreases |records|
  {
    if |records| == 0 then Success([])
    else
      assert forall i :: 1 <= i < |records| ==> records[1..][i - 1] == records[i];
      if IsCompletedRecord(records[0]) then BuildTasks(records[1..], parse)
      else
        match FromApi(records[0], parse)
        case Failure(e) => Failure(e)
        case Success(t) =>
          match BuildTasks(records[1..], parse)
          case Failure(e) => Failure(e)
          case Success(ts) => Success([t] + ts)
  }

  /** `ts[j]` is the parse of the record at position `ks[j]`, for every `j`. */
  predicate ParsesAt(records: seq<RawTask>, ks: seq<nat>, ts: seq<Task>, parse: DateParser) {
    && |ts| == |ks|
    && forall j :: 0 <= j < |ts| ==> ks[j] < |records| && FromApi(records[ks[j]], parse) == Success(ts[j])
  }

  /** Positions into the tail are positions into the whole list, one on. */
  lemma ParsesAtShift(records: seq<RawTask>, rest: seq<nat>, ts: seq<Task>, parse: DateParser)
    requires |records| > 0 && ParsesAt(records[1..], rest, ts, parse)
    ensures ParsesAt(records, Shift(rest), ts, parse)
  {
    var tail := records[1..];
    var ks := Shift(rest);
    forall j | 0 <= j < |ts| ensures ks[j] < |records| && FromApi(records[ks[j]], parse) == Success(ts[j]) {
      assert records[ks[j]] == tail[rest[j]];
    }
  }

  /** A parse of the first record goes in front. */
  lemma ParsesAtCons(records: seq<RawTask>, ks: seq<nat>, t: Task, ts: seq<Task>, parse: DateParser)
    requires |records| > 0 && FromApi(records[0], parse) == Success(t) && ParsesAt(records, ks, ts, parse)
    ensures ParsesAt(records, [0] + ks, [t] + ts, parse)
  {
    var ks' := [0] + ks;
    var ts' := [t] + ts;
    forall j | 0 <= j < |ts'| ensures ks'[j] < |records| && FromApi(records[ks'[j]], parse) == Success(ts'[j]) {
      if j > 0 {
        assert ks'[j] == ks[j - 1] && ts'[j] == ts[j - 1];
      }
    }
  }

  /** A successful loop lists the parse of each kept record, in record
      order: one task per record whose status is not 2. */
  lemma {:induction false} BuildTasksInOrder(records: seq<RawTask>, parse: DateParser)
    requires BuildTasks(records, parse).Success?
    ensures var ts := BuildTasks(records, parse).value;
            && |ts| == |KeptIndices(records)|
            && forall j :: 0 <= j < |ts| ==> FromApi(records[KeptIndices(records)[j]], parse) == Success(ts[j])
    decreases |records|
  {
    BuildTasksParsesAt(records, parse);
  }

  /** The same, stated through `ParsesAt`, by induction on the records. */
  lemma {:induction false} BuildTasksParsesAt(records: seq<RawTask>, parse: DateParser)
    requires BuildTasks(records, parse).Success?
    ensures ParsesAt(records, KeptIndices(records), BuildTasks(records, parse).value, parse)
    decreases |records|
  {
    if |records| > 0 {
      var tail := records[1..];
      assert forall i :: 1 <= i < |records| ==> tail[i - 1] == records[i];
      BuildTasksParsesAt(tail, parse);
      var rest := KeptIndices(tail);
      var tts := BuildTasks(tail, parse).value;
      ParsesAtShift(records, rest, tts, parse);
      if !IsCompletedRecord(records[0]) {
        ParsesAtCons(records, Shift(rest), FromApi(records[0], parse).value, tts, parse);
      }
    }
  }

  /** The kept tasks are exactly the parses of the records whose status is
      not 2: each such record's task is kept, and nothing else is. */
  lemma {:induction false} BuildTasksMembers(records: seq<RawTask>, parse: DateParser)
    requires BuildTasks(records, parse).Success?
    ensures var ts := BuildTasks(records, parse).value;
            && |ts| <= |records|
            && (forall t :: t in ts ==>
                  exists i :: 0 <= i < |records| && !IsCompletedRecord(records[i]) && FromApi(records[i], parse) == Success(t))
            && (forall i :: 0 <= i < |records| && !IsCompletedRecord(records[i]) ==> FromApi(records[i], parse).value in ts)
  {
    var ts := BuildTasks(records, parse).value;
    var ks := KeptIndices(records);
    BuildTasksInOrder(records, parse);
    KeptIndicesSound(records);
    KeptIndicesComplete(records);
    forall t | t in ts
      ensures exists i :: 0 <= i < |records| && !IsCompletedRecord(records[i]) && FromApi(records[i], parse) == Success(t)
    {
      var j :| 0 <= j < |ts| && ts[j] == t;
      assert FromApi(records[ks[j]], parse) == Success(t);
    }
    forall i | 0 <= i < |records| && !IsCompletedRecord(records[i]) ensures FromApi(records[i], parse).value in ts {
      var j :| 0 <= j < |ks| && ks[j] == i;
      assert ts[j] == FromApi(records[i], parse).value;
    }
  }

  const DefaultProjectName: string := "Unknown"

  /** One iteration of the outer loop of `_async_update_data`. A task fetch
      that raises `TickTickApiError` leaves the project with no tasks. */
  function BuildProject(f: ProjectFetch, parse: DateParser): (r: Result<Project, Api.Error>)
    ensures r.Success? <==>
              && f.project.id.Some?
              && (f.tasks.Fetched? ==> BuildTasks(f.tasks.records, parse).Success?)
              && (f.tasks.FetchFailed? ==> f.tasks.error.IsApiError())
    ensures r.Success? ==> r.value.id == f.project.id.value
    ensures r.Success? ==> r.value.name == f.project.name.GetOr(DefaultProjectName) && r.value.color == f.project.color
    ensures r.Success? && f.tasks.FetchFailed? ==> r.value.tasks == []
    ensures r.Success? && f.tasks.Fetched? ==> r.value.tasks == BuildTasks(f.tasks.records, parse).value
    ensures r.Success? ==> forall t :: t in r.value.tasks ==> t.status != StatusCompleted
  {
    if f.project.id.None? then Failure(Api.Unexpected("KeyError: 'id'"))
    else
      var tasks :- match f.tasks
        case Fetched(records) => BuildTasks(records, parse)
        case FetchFailed(e) => if e.IsApiError() then Success([]) else Failure(e);
      Success(Project(f.project.id.value, f.project.name.GetOr(DefaultProjectName), f.project.color, tasks))
  }

  /** All projects in order; the first one that raises aborts the refresh. */
  function BuildProjects(fs: seq<ProjectFetch>, parse: DateParser): (r: Result<seq<Project>, Api.Error>)
    ensures r.Success? <==> forall i :: 0 <= i < |fs| ==> BuildProject(fs[i], parse).Success?
    ensures r.Success? ==> |r.value| == |fs|
    ensures r.Success? ==> forall i :: 0 <= i < |fs| ==> r.value[i] == BuildProject(fs[i], parse).value
    ensures r.Failure? ==> exists i :: 0 <= i < |fs| && BuildProject(fs[i], parse) == Failure(r.error)
                                  && forall j :: 0 <= j < i ==> BuildProject(fs[j], parse).Success?
    decreases |fs|
  {
    if |fs| == 0 then Success([])
    else
      assert forall i :: 1 <= i < |fs| ==> fs[1..][i - 1] == fs[i];
      match BuildProject(fs[0], parse)
      case Failure(e) => Failure(e)
      case Success(p) =>
        match BuildProjects(fs[1..], parse)
        case Failure(e) => Failure(e)
        case Success(ps) => Success([p] + ps)
  }

  // -------------------------------------------------------------- snapshot

  /** Every project's tasks, in project order. */
  function Flatten(ps: seq<Project>): (ts: seq<Task>)
    ensures forall t :: t in ts <==> exists i :: 0 <= i < |ps| && t in ps[i].tasks
  {
    if |ps| == 0 then []
    else
      assert forall i :: 1 <= i < |ps| ==> ps[1..][i - 1] == ps[i];
      ps[0].tasks + Flatten(ps[1..])
  }

  function TaskEntries(ts: seq<Task>): seq<(string, Task)> {
    seq(|ts|, i requires 0 <= i < |ts| => (ts[i].id, ts[i]))
  }

  function ProjectEntries(ps: seq<Project>): seq<(string, Project)> {
    seq(|ps|, i requires 0 <= i < |ps| => (ps[i].id, ps[i]))
  }

  /** `current_task_ids`. */
  function ActiveIds(ps: seq<Project>): set<string> {
    set t | t in Flatten(ps) :: t.id
  }

  lemma {:induction false} TaskEntriesKeys(ts: seq<Task>)
    ensures KeysOf(TaskEntries(ts)) == set t | t in ts :: t.id
  {
    var te := TaskEntries(ts);
    forall k | k in (set t | t in ts :: t.id) ensures k in KeysOf(te) {
      var t :| t in ts && t.id == k;
      var i :| 0 <= i < |ts| && ts[i] == t;
      assert te[i].0 == k;
    }
  }

  lemma {:induction false} ProjectEntriesKeys(ps: seq<Project>)
    ensures KeysOf(ProjectEntries(ps)) == set p | p in ps :: p.id
  {
    var pe := ProjectEntries(ps);
    forall k | k in (set p | p in ps :: p.id) ensures k in KeysOf(pe) {
      var p :| p in ps && p.id == k;
      var i :| 0 <= i < |ps| && ps[i] == p;
      assert pe[i].0 == k;
    }
  }

  /** Filing tasks by their ids keeps each under its own id, and keeps only listed tasks. */
  lemma {:induction false} TaskMapKeyedById(ts: seq<Task>)
    ensures var m := PutAll(Empty(), TaskEntries(ts));
            forall k :: k in m.entries ==> m.entries[k].id == k && m.entries[k] in ts
  {
    var m := PutAll(Empty(), TaskEntries(ts));
    forall k | k in m.entries ensures m.entries[k].id == k && m.entries[k] in ts {
      PutAllValuesFrom(Empty(), TaskEntries(ts), k);
    }
  }

  lemma {:induction false} ProjectMapFromList(ps: seq<Project>)
    ensures var m := PutAll(Empty(), ProjectEntries(ps));
            forall k :: k in m.entries ==> m.entries[k].id == k && m.entries[k] in ps
  {
    var m := PutAll(Empty(), ProjectEntries(ps));
    forall k | k in m.entries ensures m.entries[k].id == k && m.entries[k] in ps {
      PutAllValuesFrom(Empty(), ProjectEntries(ps), k);
    }
  }

  /** The snapshot `_async_update_data` returns: `projects[id] = project`
      per project and `all_tasks[task.id] = task` per kept task. */
  function SnapshotOf(ps: seq<Project>): Snapshot {
    Snapshot(PutAll(Empty(), ProjectEntries(ps)), PutAll(Empty(), TaskEntries(Flatten(ps))))
  }

  /** The flattened task map holds exactly the current ids, each task under
      its own id, and nothing that is not in some project's list. */
  lemma {:induction false} SnapshotOfFacts(ps: seq<Project>)
    ensures WellFormed(SnapshotOf(ps))
    ensures SnapshotOf(ps).tasks.entries.Keys == ActiveIds(ps)
    ensures SnapshotOf(ps).projects.entries.Keys == set p | p in ps :: p.id
    ensures forall k :: k in SnapshotOf(ps).tasks.entries ==> SnapshotOf(ps).tasks.entries[k] in Flatten(ps)
    ensures forall k :: k in SnapshotOf(ps).projects.entries ==>
              SnapshotOf(ps).projects.entries[k].id == k && SnapshotOf(ps).projects.entries[k] in ps
  {
    var s := SnapshotOf(ps);
    var flat := Flatten(ps);
    TaskEntriesKeys(flat);
    ProjectEntriesKeys(ps);
    TaskMapKeyedById(flat);
    ProjectMapFromList(ps);
    assert s.tasks == PutAll(Empty(), TaskEntries(flat));
    assert s.projects == PutAll(Empty(), ProjectEntries(ps));
    assert s.tasks.entries.Keys == KeysOf(TaskEntries(flat));
    assert s.projects.entries.Keys == KeysOf(ProjectEntries(ps));
  }

  // ---------------------------------------------------------------- events

  /** The bus events the refresh fires, with their payloads. */
  datatype Event =
    | TaskCreated(taskId: string, projectId: string, title: string, due: Option<Time>, priority: int)
    | TaskCompleted(taskId: string, completedAt: Time)
    | TaskDueSoon(taskId: string, projectId: string, title: string, dueAt: Time, minutesUntilDue: int)

  function EventIds(es: set<Event>): (ids: set<string>)
    ensures forall e :: e in es ==> e.taskId in ids
    ensures es == {} <==> ids == {}
  {
    set e | e in es :: e.taskId
  }

  function CreatedEvent(t: Task): Event {
    TaskCreated(t.id, t.projectId, t.title, t.due, t.priority)
  }

  /** The "created" half of `_fire_task_events`: one event per id that is
      current but was not seen before, for ids the task map knows, each
      carrying the payload of the task filed under that id. */
  function CreatedEvents(current: set<string>, previous: set<string>, tasks: map<string, Task>): (r: set<Event>)
    requires forall k :: k in tasks ==> tasks[k].id == k
    ensures EventIds(r) == (current - previous) * tasks.Keys
    ensures forall e :: e in r ==> e.taskId in tasks && e == CreatedEvent(tasks[e.taskId])
  {
    var r := set id | id in current - previous && id in tasks :: CreatedEvent(tasks[id]);
    assert forall id :: id in current - previous && id in tasks ==> CreatedEvent(tasks[id]) in r;
    r
  }

  /** The "completed" half of `_fire_task_events`: one event per id seen
      before but gone now, stamped with the refresh time. */
  function CompletedEvents(previous: set<string>, current: set<string>, now: Time): (r: set<Event>)
    ensures EventIds(r) == previous - current
    ensures forall e :: e in r ==> e == TaskCompleted(e.taskId, now)
  {
    var r := set id | id in previous - current :: TaskCompleted(id, now);
    assert forall id :: id in previous - current ==> TaskCompleted(id, now) in r;
    r
  }

  /** Completed events never repeat an id. */
  lemma CompletedOncePerId(previous: set<string>, current: set<string>, now: Time, e1: Event, e2: Event)
    requires e1 in CompletedEvents(previous, current, now) && e2 in CompletedEvents(previous, current, now)
    requires e1.taskId == e2.taskId
    ensures e1 == e2
  {
  }

  /** The window `now < due <= now + minutes`. A task due exactly now is not due soon. */
  predicate DueSoon(t: Task, now: Time, minutes: int) {
    t.due.Some? && now < t.due.value <= now + minutes * SecondsPerMinute
  }

  /** The due-soon event for a task, with `minutes_until_due` truncated. */
  function DueSoonEvent(t: Task, now: Time): (e: Event)
    requires t.due.Some?
    ensures e.TaskDueSoon? && e.taskId == t.id && e.dueAt == t.due.value
    ensures e == TaskDueSoon(t.id, t.projectId, t.title, t.due.value, e.minutesUntilDue)
    ensures now <= t.due.value ==>
              e.minutesUntilDue * SecondsPerMinute <= t.due.value - now < (e.minutesUntilDue + 1) * SecondsPerMinute
  {
    TaskDueSoon(t.id, t.projectId, t.title, t.due.value, TruncDiv(t.due.value - now, SecondsPerMinute))
  }

  /** The minutes an announcement reports lie within the window. */
  lemma DueSoonMinutesBounded(t: Task, now: Time, minutes: int)
    requires DueSoon(t, now, minutes)
    ensures 0 <= DueSoonEvent(t, now).minutesUntilDue <= minutes
  {
    var e := DueSoonEvent(t, now);
    assert e.minutesUntilDue * SecondsPerMinute <= minutes * SecondsPerMinute;
  }

  /** The ids of a list of events. */
  function IdsOf(es: seq<Event>): (ids: set<string>)
    ensures forall j :: 0 <= j < |es| ==> es[j].taskId in ids
    ensures forall x :: x in ids ==> exists j :: 0 <= j < |es| && es[j].taskId == x
  {
    if |es| == 0 then {}
    else
      assert forall j :: 1 <= j < |es| ==> es[1..][j - 1] == es[j];
      {es[0].taskId} + IdsOf(es[1..])
  }

  /** The loop of `_check_due_soon`: a task is announced when it is due
      soon and its id is not yet in the notified set, which then gains it. */
  function ScanDueSoon(ts: seq<Task>, notified: set<string>, now: Time, minutes: int): (r: (seq<Event>, set<string>))
    ensures r.1 == notified + IdsOf(r.0)
    ensures forall j :: 0 <= j < |r.0| ==> r.0[j].taskId !in notified
    decreases |ts|
  {
    if |ts| == 0 then ([], notified)
    else if DueSoon(ts[0], now, minutes) && ts[0].id !in notified then
      var rest := ScanDueSoon(ts[1..], notified + {ts[0].id}, now, minutes);
      var es := [DueSoonEvent(ts[0], now)] + rest.0;
      assert es[1..] == rest.0;
      (es, rest.1)
    else
      ScanDueSoon(ts[1..], notified, now, minutes)
  }

  /** `e` announces some task of `ts` that is due soon. */
  ghost predicate AnnouncesListed(ts: seq<Task>, now: Time, minutes: int, e: Event) {
    exists i :: 0 <= i < |ts| && DueSoon(ts[i], now, minutes) && e == DueSoonEvent(ts[i], now)
  }

  lemma AnnouncesListedTail(ts: seq<Task>, now: Time, minutes: int, e: Event)
    requires 0 < |ts| && AnnouncesListed(ts[1..], now, minutes, e)
    ensures AnnouncesListed(ts, now, minutes, e)
  {
    var i :| 0 <= i < |ts[1..]| && DueSoon(ts[1..][i], now, minutes) && e == DueSoonEvent(ts[1..][i], now);
    assert ts[1..][i] == ts[i + 1];
  }

  /** Every announcement is for a listed task that is due soon. */
  lemma {:induction false} ScanSound(ts: seq<Task>, notified: set<string>, now: Time, minutes: int)
    ensures forall e :: e in ScanDueSoon(ts, notified, now, minutes).0 ==> AnnouncesListed(ts, now, minutes, e)
    decreases |ts|
  {
    if |ts| > 0 {
      var n' := if DueSoon(ts[0], now, minutes) && ts[0].id !in notified then notified + {ts[0].id} else notified;
      ScanSound(ts[1..], n', now, minutes);
      var rest := ScanDueSoon(ts[1..], n', now, minutes).0;
      forall e | e in rest ensures AnnouncesListed(ts, now, minutes, e) {
        AnnouncesListedTail(ts, now, minutes, e);
      }
      if DueSoon(ts[0], now, minutes) && ts[0].id !in notified {
        assert ScanDueSoon(ts, notified, now, minutes).0 == [DueSoonEvent(ts[0], now)] + rest;
        assert AnnouncesListed(ts, now, minutes, DueSoonEvent(ts[0], now));
      } else {
        assert ScanDueSoon(ts, notified, now, minutes).0 == rest;
      }
    }
  }

  /** Every listed task that is due soon and not yet notified is announced. */
  lemma {:induction false} ScanComplete(ts: seq<Task>, notified: set<string>, now: Time, minutes: int)
    ensures forall i :: 0 <= i < |ts| && DueSoon(ts[i], now, minutes) && ts[i].id !in notified ==>
              ts[i].id in IdsOf(ScanDueSoon(ts, notified, now, minutes).0)
    decreases |ts|
  {
    if |ts| > 0 {
      assert forall i :: 1 <= i < |ts| ==> ts[1..][i - 1] == ts[i];
      if DueSoon(ts[0], now, minutes) && ts[0].id !in notified {
        ScanComplete(ts[1..], notified + {ts[0].id}, now, minutes);
      } else {
        ScanComplete(ts[1..], notified, now, minutes);
      }
    }
  }

  /** No two events of the list share an id. */
  predicate DistinctIds(es: seq<Event>) {
    forall j, k :: 0 <= j < k < |es| ==> es[j].taskId != es[k].taskId
  }

  /** No id is announced twice in one scan, even if the list repeats it. */
  lemma {:induction false} ScanDistinct(ts: seq<Task>, notified: set<string>, now: Time, minutes: int)
    ensures DistinctIds(ScanDueSoon(ts, notified, now, minutes).0)
    decreases |ts|
  {
    if |ts| > 0 {
      if DueSoon(ts[0], now, minutes) && ts[0].id !in notified {
        var n' := notified + {ts[0].id};
        ScanDistinct(ts[1..], n', now, minutes);
        var rest := ScanDueSoon(ts[1..], n', now, minutes).0;
        var es := [DueSoonEvent(ts[0], now)] + rest;
        assert ScanDueSoon(ts, notified, now, minutes).0 == es;
        forall j, k | 0 <= j < k < |es| ensures es[j].taskId != es[k].taskId {
          assert es[k] == rest[k - 1];
          assert rest[k - 1].taskId !in n';
          if j > 0 {
            assert es[j] == rest[j - 1];
          }
        }
      } else {
        ScanDistinct(ts[1..], notified, now, minutes);
      }
    }
  }

  /** `_check_due_soon` over the task map, followed by the pruning
      `notified &= set(tasks.keys())`. */
  function CheckDueSoon(tasks: OrderedMap<string, Task>, notified: set<string>, now: Time, minutes: int): (r: (seq<Event>, set<string>))
    requires tasks.Valid()
    ensures r.1 <= tasks.entries.Keys
  {
    var scan := ScanDueSoon(tasks.Values(), notified, now, minutes);
    (scan.0, scan.1 * tasks.entries.Keys)
  }

  // --------------------------------------------------------------- refresh

  /** What survives between refreshes: `_previous_tasks` and `_notified_due_soon`. */
  datatype State = State(previous: set<string>, notified: set<string>)

  /** The state of a freshly set-up coordinator: nothing seen, nothing notified. */
  const InitialState: State := State({}, {})

  datatype Update = Update(state: State, snapshot: Snapshot, created: set<Event>, completed: set<Event>, dueSoon: seq<Event>)

  /** A refresh either publishes a new snapshot or fails: an API error as
      `UpdateFailed`, anything else as the exception raised. */
  datatype RefreshResult = Updated(update: Update) | Failed(error: Api.Error, message: string)

  const AuthFailedPrefix: string := "Authentication failed: "
  const CommunicationPrefix: string := "Error communicating with TickTick: "

  /** The text a failed refresh reports: for an API error, the text
      `UpdateFailed` carries, where an authentication failure and any other
      API error each get their own prefix before the error's text; any other
      exception is not wrapped and is reported by its own label. */
  function FailureMessage(e: Api.Error): (msg: string)
    ensures e.AuthError? ==> StartsWith(msg, AuthFailedPrefix)
    ensures e.ApiError? ==> StartsWith(msg, CommunicationPrefix)
    ensures !e.IsApiError() ==> msg == e.message
    ensures EndsWith(msg, e.message)
  {
    match e
    case AuthError(m) => AuthFailedPrefix + m
    case ApiError(m) => CommunicationPrefix + m
    case Unexpected(m) => m
  }

  /** The `UpdateFailed` text tells the two kinds of API error apart and
      carries the error's own text, so no two API errors read the same. */
  lemma FailureMessageInjective(e1: Api.Error, e2: Api.Error)
    requires e1.IsApiError() && e2.IsApiError()
    requires FailureMessage(e1) == FailureMessage(e2)
    ensures e1 == e2
  {
    var msg := FailureMessage(e1);
    assert AuthFailedPrefix[0] != CommunicationPrefix[0];
    assert e1.AuthError? <==> msg[0] == AuthFailedPrefix[0];
    assert e2.AuthError? <==> msg[0] == AuthFailedPrefix[0];
    var n := |msg| - |e1.message|;
    assert e1.message == msg[n..];
    assert e2.message == msg[n..];
  }

  /** `_async_update_data` with the clock reading `now` and a due-soon
      window of `dueSoonMinutes`; `fetched` is what `get_projects` gave,
      each project paired with what its own task fetch gave. */
  function Refresh(st: State, fetched: Result<seq<ProjectFetch>, Api.Error>, parse: DateParser,
                   now: Time, dueSoonMinutes: int): (r: RefreshResult)
    ensures r.Failed? <==> fetched.Failure? || BuildProjects(fetched.value, parse).Failure?
    ensures r.Failed? && fetched.Failure? ==> r.error == fetched.error
    ensures r.Failed? && fetched.Success? ==>
              exists i :: 0 <= i < |fetched.value| && BuildProject(fetched.value[i], parse) == Failure(r.error)
                       && forall j :: 0 <= j < i ==> BuildProject(fetched.value[j], parse).Success?
    ensures r.Failed? ==> r.message == FailureMessage(r.error)
    ensures r.Updated? ==> WellFormed(r.update.snapshot)
    ensures r.Updated? ==> r.update.state.previous == r.update.snapshot.tasks.entries.Keys
    ensures r.Updated? ==> r.update.state.notified <= r.update.snapshot.tasks.entries.Keys
  {
    match fetched
    case Failure(e) => Failed(e, FailureMessage(e))
    case Success(fs) =>
      match BuildProjects(fs, parse)
      case Failure(e) => Failed(e, FailureMessage(e))
      case Success(ps) =>
        var snapshot := SnapshotOf(ps);
        SnapshotOfFacts(ps);
        var current := ActiveIds(ps);
        var created := CreatedEvents(current, st.previous, snapshot.tasks.entries);
        var completed := CompletedEvents(st.previous, current, now);
        var due := CheckDueSoon(snapshot.tasks, st.notified, now, dueSoonMinutes);
        Updated(Update(State(current, due.1), snapshot, created, completed, due.0))
  }

  /** The state the coordinator holds after a refresh attempt. A failed
      refresh raises before either set is assigned, so it changes nothing;
      a successful one remembers the snapshot's task ids and keeps only
      notified ids the snapshot still holds. */
  function Next(st: State, fetched: Result<seq<ProjectFetch>, Api.Error>, parse: DateParser,
                now: Time, dueSoonMinutes: int): (s: State)
    ensures Refresh(st, fetched, parse, now, dueSoonMinutes).Failed? ==> s == st
    ensures Refresh(st, fetched, parse, now, dueSoonMinutes).Updated? ==>
              var snap := Refresh(st, fetched, parse, now, dueSoonMinutes).update.snapshot;
              s.previous == snap.tasks.entries.Keys && s.notified <= s.previous
  {
    var r := Refresh(st, fetched, parse, now, dueSoonMinutes);
    if r.Updated? then r.update.state else st
  }

  // ------------------------------------------------------ refresh properties

  /** The created events name exactly the ids that are new, the completed
      events exactly the ids that disappeared, and `_previous_tasks`
      becomes the current id set. */
  lemma {:induction false} RefreshDiff(st: State, fs: seq<ProjectFetch>, parse: DateParser, now: Time, minutes: int)
    requires Refresh(st, Success(fs), parse, now, minutes).Updated?
    ensures var u := Refresh(st, Success(fs), parse, now, minutes).update;
            && u.state.previous == ActiveIds(BuildProjects(fs, parse).value)
            && EventIds(u.created) == u.state.previous - st.previous
            && EventIds(u.completed) == st.previous - u.state.previous
            && (forall e :: e in u.completed ==> e == TaskCompleted(e.taskId, now))
  {
    var ps := BuildProjects(fs, parse).value;
    var u := Refresh(st, Success(fs), parse, now, minutes).update;
    var snap := SnapshotOf(ps);
    SnapshotOfFacts(ps);
    var current := ActiveIds(ps);
    var tasks := snap.tasks.entries;
    assert u.created == CreatedEvents(current, st.previous, tasks);
    assert tasks.Keys == current;
  }

  /** Refreshing again on the same data announces nothing as created or completed. */
  lemma {:induction false} RefreshTwiceQuiet(st: State, fs: seq<ProjectFetch>, parse: DateParser,
                                             now1: Time, now2: Time, minutes1: int, minutes2: int)
    requires Refresh(st, Success(fs), parse, now1, minutes1).Updated?
    ensures var st1 := Refresh(st, Success(fs), parse, now1, minutes1).update.state;
            var r2 := Refresh(st1, Success(fs), parse, now2, minutes2);
            r2.Updated? && r2.update.created == {} && r2.update.completed == {}
  {
    var st1 := Refresh(st, Success(fs), parse, now1, minutes1).update.state;
    RefreshDiff(st, fs, parse, now1, minutes1);
    RefreshDiff(st1, fs, parse, now2, minutes2);
  }

  /** A task announced as due soon is not announced again by the next
      refresh, whatever the data, the clock or the window then are. */
  lemma {:induction false} DueSoonAtMostOnce(st: State, fs1: Result<seq<ProjectFetch>, Api.Error>,
                                             fs2: Result<seq<ProjectFetch>, Api.Error>, parse: DateParser,
                                             now1: Time, now2: Time, minutes1: int, minutes2: int)
    ensures var r1 := Refresh(st, fs1, parse, now1, minutes1);
            r1.Updated? ==>
              var st1 := r1.update.state;
              var r2 := Refresh(st1, fs2, parse, now2, minutes2);
              forall e :: e in r1.update.dueSoon ==>
                e.taskId in st1.notified && (r2.Updated? ==> e.taskId !in IdsOf(r2.update.dueSoon))
  {
    var r1 := Refresh(st, fs1, parse, now1, minutes1);
    if r1.Updated? {
      RefreshDueSoonExactly(st, fs1.value, parse, now1, minutes1);
      var tasks := r1.update.snapshot.tasks.entries;
      forall e | e in r1.update.dueSoon ensures e.taskId in r1.update.state.notified {
        assert e.taskId in tasks && e.taskId in IdsOf(r1.update.dueSoon);
      }
    }
  }

  /** A refresh that fails between two successful ones does not make a
      due-soon announcement repeat: the task announced by the first is not
      announced by the next successful refresh. */
  lemma {:induction false} DueSoonNotRepeatedAfterFailure(
    st: State, fs1: Result<seq<ProjectFetch>, Api.Error>, fs2: Result<seq<ProjectFetch>, Api.Error>,
    fs3: Result<seq<ProjectFetch>, Api.Error>, parse: DateParser,
    now1: Time, now2: Time, now3: Time, minutes1: int, minutes2: int, minutes3: int)
    ensures var r1 := Refresh(st, fs1, parse, now1, minutes1);
            var st1 := Next(st, fs1, parse, now1, minutes1);
            var st2 := Next(st1, fs2, parse, now2, minutes2);
            var r3 := Refresh(st2, fs3, parse, now3, minutes3);
            r1.Updated? && Refresh(st1, fs2, parse, now2, minutes2).Failed? && r3.Updated? ==>
              forall e :: e in r1.update.dueSoon ==> e.taskId !in IdsOf(r3.update.dueSoon)
  {
    DueSoonAtMostOnce(st, fs1, fs3, parse, now1, now3, minutes1, minutes3);
  }

  /** The first refresh after setup announces every task it finds as
      created, reports nothing completed, and announces every task due in
      the window. */
  lemma {:induction false} FirstRefreshAnnouncesAll(fs: seq<ProjectFetch>, parse: DateParser, now: Time, minutes: int)
    requires Refresh(InitialState, Success(fs), parse, now, minutes).Updated?
    ensures var u := Refresh(InitialState, Success(fs), parse, now, minutes).update;
            && EventIds(u.created) == u.snapshot.tasks.entries.Keys
            && u.completed == {}
            && forall k :: k in u.snapshot.tasks.entries ==>
                 (k in IdsOf(u.dueSoon) <==> DueSoon(u.snapshot.tasks.entries[k], now, minutes))
  {
    FirstRefreshDiff(fs, parse, now, minutes);
    FirstRefreshDueSoon(fs, parse, now, minutes);
  }

  /** The created/completed half: every task is new, none is gone. */
  lemma {:induction false} FirstRefreshDiff(fs: seq<ProjectFetch>, parse: DateParser, now: Time, minutes: int)
    requires Refresh(InitialState, Success(fs), parse, now, minutes).Updated?
    ensures var u := Refresh(InitialState, Success(fs), parse, now, minutes).update;
            EventIds(u.created) == u.snapshot.tasks.entries.Keys && u.completed == {}
  {
    var u := Refresh(InitialState, Success(fs), parse, now, minutes).update;
    var ps := BuildProjects(fs, parse).value;
    RefreshDiff(InitialState, fs, parse, now, minutes);
    RefreshUnfold(InitialState, fs, parse, now, minutes);
    SnapshotOfFacts(ps);
    assert u.snapshot == SnapshotOf(ps);
    assert EventIds(u.completed) == {};
  }

  /** The due-soon half: nothing is notified yet, so every task due in the
      window is announced. */
  lemma {:induction false} FirstRefreshDueSoon(fs: seq<ProjectFetch>, parse: DateParser, now: Time, minutes: int)
    requires Refresh(InitialState, Success(fs), parse, now, minutes).Updated?
    ensures var u := Refresh(InitialState, Success(fs), parse, now, minutes).update;
            forall k :: k in u.snapshot.tasks.entries ==>
              (k in IdsOf(u.dueSoon) <==> DueSoon(u.snapshot.tasks.entries[k], now, minutes))
  {
    RefreshDueSoonExactly(InitialState, fs, parse, now, minutes);
  }

  /** A task map filed by id, as the snapshot's is. */
  ghost predicate KeyedById(tasks: OrderedMap<string, Task>) {
    tasks.Valid() && forall k :: k in tasks.entries ==> tasks.entries[k].id == k
  }

  /** Each due-soon announcement is for a task of the map that is due in
      the window, and reports a whole number of minutes inside it. */
  lemma {:induction false} CheckDueSoonSound(tasks: OrderedMap<string, Task>, notified: set<string>, now: Time, minutes: int)
    requires KeyedById(tasks)
    ensures forall e :: e in CheckDueSoon(tasks, notified, now, minutes).0 ==>
              && e.TaskDueSoon?
              && e.taskId in tasks.entries
              && e.taskId !in notified
              && DueSoon(tasks.entries[e.taskId], now, minutes)
              && e == DueSoonEvent(tasks.entries[e.taskId], now)
              && 0 <= e.minutesUntilDue <= minutes
  {
    var vals := tasks.Values();
    var es := ScanDueSoon(vals, notified, now, minutes).0;
    ScanSound(vals, notified, now, minutes);
    forall e | e in es
      ensures e.taskId in tasks.entries && DueSoon(tasks.entries[e.taskId], now, minutes) && 0 <= e.minutesUntilDue <= minutes
      ensures e == DueSoonEvent(tasks.entries[e.taskId], now)
    {
      assert AnnouncesListed(vals, now, minutes, e);
      var i :| 0 <= i < |vals| && DueSoon(vals[i], now, minutes) && e == DueSoonEvent(vals[i], now);
      assert tasks.order[i] in tasks.entries;
      assert vals[i] == tasks.entries[tasks.order[i]] && e.taskId == tasks.order[i];
      DueSoonMinutesBounded(vals[i], now, minutes);
    }
  }

  /** Every task of the map that is due in the window and not yet notified is announced. */
  lemma {:induction false} CheckDueSoonComplete(tasks: OrderedMap<string, Task>, notified: set<string>, now: Time, minutes: int)
    requires KeyedById(tasks)
    ensures forall k :: k in tasks.entries && DueSoon(tasks.entries[k], now, minutes) && k !in notified ==>
              k in IdsOf(CheckDueSoon(tasks, notified, now, minutes).0)
  {
    var vals := tasks.Values();
    ScanComplete(vals, notified, now, minutes);
    forall k | k in tasks.entries && DueSoon(tasks.entries[k], now, minutes) && k !in notified
      ensures k in IdsOf(ScanDueSoon(vals, notified, now, minutes).0)
    {
      var i :| 0 <= i < |tasks.order| && tasks.order[i] == k;
      assert vals[i] == tasks.entries[k];
    }
  }

  /** The due-soon scan over a task map filed by id announces a task
      exactly when it is due in the window and not already notified, never
      twice, and leaves a notified set holding only ids of the map. */
  lemma {:induction false} CheckDueSoonExactly(tasks: OrderedMap<string, Task>, notified: set<string>, now: Time, minutes: int)
    requires KeyedById(tasks)
    ensures var r := CheckDueSoon(tasks, notified, now, minutes);
            && (forall k :: k in tasks.entries ==> (k in IdsOf(r.0) <==> DueSoon(tasks.entries[k], now, minutes) && k !in notified))
            && (forall e :: e in r.0 ==> e.TaskDueSoon? && e.taskId in tasks.entries && 0 <= e.minutesUntilDue <= minutes)
            && (forall e :: e in r.0 ==> e.taskId in tasks.entries && e == DueSoonEvent(tasks.entries[e.taskId], now))
            && DistinctIds(r.0)
            && r.1 == (notified + IdsOf(r.0)) * tasks.entries.Keys
  {
    var r := CheckDueSoon(tasks, notified, now, minutes);
    CheckDueSoonSound(tasks, notified, now, minutes);
    CheckDueSoonComplete(tasks, notified, now, minutes);
    ScanDistinct(tasks.Values(), notified, now, minutes);
    forall k | k in IdsOf(r.0) ensures k in tasks.entries && DueSoon(tasks.entries[k], now, minutes) && k !in notified {
      var j :| 0 <= j < |r.0| && r.0[j].taskId == k;
      assert r.0[j] in r.0;
    }
  }

  /** How a successful refresh is put together. */
  lemma {:induction false} RefreshUnfold(st: State, fs: seq<ProjectFetch>, parse: DateParser, now: Time, minutes: int)
    requires Refresh(st, Success(fs), parse, now, minutes).Updated?
    ensures BuildProjects(fs, parse).Success?
    ensures KeyedById(SnapshotOf(BuildProjects(fs, parse).value).tasks)
    ensures var ps := BuildProjects(fs, parse).value;
            var snap := SnapshotOf(ps);
            var due := CheckDueSoon(snap.tasks, st.notified, now, minutes);
            var u := Refresh(st, Success(fs), parse, now, minutes).update;
            u.snapshot == snap && u.dueSoon == due.0 && u.state.notified == due.1
  {
    SnapshotOfFacts(BuildProjects(fs, parse).value);
  }

  /** Within one refresh, a task of the snapshot is announced as due soon
      exactly when it is due in the window and not already notified; no id
      is announced twice; every announcement reports a whole number of
      minutes inside the window; and the notified set keeps only ids the
      snapshot still holds. */
  lemma {:induction false} RefreshDueSoonExactly(st: State, fs: seq<ProjectFetch>, parse: DateParser, now: Time, minutes: int)
    requires Refresh(st, Success(fs), parse, now, minutes).Updated?
    ensures var u := Refresh(st, Success(fs), parse, now, minutes).update;
            var tasks := u.snapshot.tasks.entries;
            && (forall k :: k in tasks ==> (k in IdsOf(u.dueSoon) <==> DueSoon(tasks[k], now, minutes) && k !in st.notified))
            && (forall e :: e in u.dueSoon ==> e.TaskDueSoon? && e.taskId in tasks && 0 <= e.minutesUntilDue <= minutes)
            && (forall e :: e in u.dueSoon ==> e.taskId in tasks && e == DueSoonEvent(tasks[e.taskId], now))
            && DistinctIds(u.dueSoon)
            && u.state.notified == (st.notified + IdsOf(u.dueSoon)) * tasks.Keys
  {
    RefreshUnfold(st, fs, parse, now, minutes);
    var snap := SnapshotOf(BuildProjects(fs, parse).value);
    CheckDueSoonExactly(snap.tasks, st.notified, now, minutes);
  }

  /** No task the snapshot holds, in a project's list or in the flattened
      map, carries the completed status. */
  lemma {:induction false} RefreshDropsCompleted(st: State, fs: seq<ProjectFetch>, parse: DateParser, now: Time, minutes: int)
    requires Refresh(st, Success(fs), parse, now, minutes).Updated?
    ensures var snap := Refresh(st, Success(fs), parse, now, minutes).update.snapshot;
            && (forall k :: k in snap.tasks.entries ==> snap.tasks.entries[k].status != StatusCompleted)
            && (forall k, t :: k in snap.projects.entries && t in snap.projects.entries[k].tasks ==> t.status != StatusCompleted)
  {
    RefreshUnfold(st, fs, parse, now, minutes);
    var ps := BuildProjects(fs, parse).value;
    SnapshotOfFacts(ps);
    var snap := SnapshotOf(ps);
    forall p | p in ps ensures forall t :: t in p.tasks ==> t.status != StatusCompleted {
      var i :| 0 <= i < |ps| && ps[i] == p;
      assert p == BuildProject(fs[i], parse).value;
    }
    forall k | k in snap.tasks.entries ensures snap.tasks.entries[k].status != StatusCompleted {
      var t := snap.tasks.entries[k];
      assert t in Flatten(ps);
      var i :| 0 <= i < |ps| && t in ps[i].tasks;
      assert ps[i] in ps;
    }
  }

  /** A project whose own task fetch raised an API error still appears in
      the snapshot, with no tasks. */
  lemma {:induction false} FailedTaskFetchKeepsProject(st: State, fs: seq<ProjectFetch>, parse: DateParser,
                                                       now: Time, minutes: int, i: int)
    requires 0 <= i < |fs| && fs[i].project.id.Some?
    requires fs[i].tasks.FetchFailed? && fs[i].tasks.error.IsApiError()
    requires forall j :: i < j < |fs| ==> fs[j].project.id != fs[i].project.id
    requires forall j :: 0 <= j < |fs| ==> BuildProject(fs[j], parse).Success?
    ensures var snap := Refresh(st, Success(fs), parse, now, minutes).update.snapshot;
            && fs[i].project.id.value in snap.projects.entries
            && snap.projects.entries[fs[i].project.id.value].tasks == []
  {
    var ps := BuildProjects(fs, parse).value;
    var pe := ProjectEntries(ps);
    assert pe[i] == (fs[i].project.id.value, ps[i]);
    assert LastWithKey(pe, i) by {
      forall j | i < j < |pe| ensures pe[j].0 != pe[i].0 {
        assert pe[j].0 == BuildProject(fs[j], parse).value.id == fs[j].project.id.value;
      }
    }
    PutAllLastWins(Empty(), pe, i);
    SnapshotOfFacts(ps);
  }
}

=== FILE: model.dfy ===
/** The domain records of the integration: the priority table of const.py,
    `TickTickTask` with its `from_api` parser, `TickTickProject` with its
    derived counts, and the `TickTickData` snapshot
    (custom_components/ticktick/coordinator.py, const.py). */
module Model {
  import opened Wrappers
  import opened Clock
  import opened OrderedMaps
  import Api

  // ------------------------------------------------------------ priorities

  const PriorityNone: int := 0
  const PriorityLow: int := 1
  const PriorityMedium: int := 3
  const PriorityHigh: int := 5

  /** `PRIORITY_MAP`: priority ordinal to its name. */
  const PriorityMap: map<int, string> :=
    map[PriorityNone := "none", PriorityLow := "low", PriorityMedium := "medium", PriorityHigh := "high"]

  /** `PRIORITY_MAP.get(priority, "none")`: unknown ordinals read as "none". */
  function PriorityName(priority: int): (name: string)
    ensures name in {"none", "low", "medium", "high"}
    ensures name == "none" <==> priority !in {PriorityLow, PriorityMedium, PriorityHigh}
    ensures priority == PriorityLow ==> name == "low"
    ensures priority == PriorityMedium ==> name == "medium"
    ensures priority == PriorityHigh ==> name == "high"
  {
    if priority in PriorityMap then PriorityMap[priority] else "none"
  }

  // ----------------------------------------------------------------- tasks

  /** A task record as the API sends it; `None` marks a missing key. */
  datatype RawTask = RawTask(
    id: Option<string>,
    projectId: Option<string>,
    title: Option<string>,
    content: Option<string>,
    dueDate: Option<string>,
    priority: Option<int>,
    isAllDay: Option<bool>,
    status: Option<int>,
    parentId: Option<string>)

  /** `TickTickTask`. */
  datatype Task = Task(
    id: string,
    projectId: string,
    title: string,
    content: Option<string>,
    due: Option<Time>,
    priority: int,
    isAllDay: bool,
    status: int,
    parentId: Option<string>)

  /** The ISO-8601 reader (`datetime.fromisoformat` after rewriting a
      trailing "Z"), left uninterpreted: it either yields an instant or
      fails, and a failure is swallowed. */
  type DateParser = string -> Option<Time>

  const StatusActive: int := 0
  const StatusCompleted: int := 2

  /** `TickTickTask.from_api`. Only the two indexed keys can make it raise. */
  function FromApi(raw: RawTask, parse: DateParser): (r: Result<Task, Api.Error>)
    ensures r.Success? <==> raw.id.Some? && raw.projectId.Some?
    ensures r.Failure? ==> !r.error.IsApiError()
    ensures r.Success? ==> r.value.id == raw.id.value && r.value.projectId == raw.projectId.value
    ensures r.Success? && r.value.due.Some? ==> raw.dueDate.Some? && raw.dueDate.value != "" && parse(raw.dueDate.value) == r.value.due
    ensures r.Success? && raw.dueDate.Some? && raw.dueDate.value != "" ==> r.value.due == parse(raw.dueDate.value)
    ensures r.Success? && raw.status != Some(StatusCompleted) ==> r.value.status != StatusCompleted
    ensures r.Success? && raw.title.Some? ==> r.value.title == raw.title.value
    ensures r.Success? && raw.priority.Some? ==> r.value.priority == raw.priority.value
    ensures r.Success? && raw.isAllDay.Some? ==> r.value.isAllDay == raw.isAllDay.value
    ensures r.Success? && raw.status.Some? ==> r.value.status == raw.status.value
    ensures r.Success? ==> r.value.content == raw.content && r.value.parentId == raw.parentId
  {
    if raw.id.None? then Failure(Api.Unexpected("KeyError: 'id'"))
    else if raw.projectId.None? then Failure(Api.Unexpected("KeyError: 'projectId'"))
    else
      var due := if raw.dueDate.Some? && raw.dueDate.value != "" then parse(raw.dueDate.value) else None;
      Success(Task(
        id := raw.id.value,
        projectId := raw.projectId.value,
        title := raw.title.GetOr(""),
        content := raw.content,
        due := due,
        priority := raw.priority.GetOr(PriorityNone),
        isAllDay := raw.isAllDay.GetOr(false),
        status := raw.status.GetOr(StatusActive),
        parentId := raw.parentId))
  }

  /** Each optional key a record lacks gets its default, independently of
      the others: an empty title, priority none, not all-day, status 0, and
      no content, due date or parent. */
  lemma FromApiDefaults(raw: RawTask, parse: DateParser)
    requires raw.id.Some? && raw.projectId.Some?
    ensures FromApi(raw, parse).Success?
    ensures raw.title.None? ==> FromApi(raw, parse).value.title == ""
    ensures raw.priority.None? ==> FromApi(raw, parse).value.priority == PriorityNone
    ensures raw.isAllDay.None? ==> !FromApi(raw, parse).value.isAllDay
    ensures raw.status.None? ==> FromApi(raw, parse).value.status == StatusActive
    ensures raw.content.None? ==> FromApi(raw, parse).value.content.None?
    ensures raw.dueDate.None? ==> FromApi(raw, parse).value.due.None?
    ensures raw.parentId.None? ==> FromApi(raw, parse).value.parentId.None?
  {
  }

  /** A due date that is missing, empty or unreadable leaves the task undated
      and is never an error. */
  lemma FromApiBadDateIsNoDate(raw: RawTask, parse: DateParser)
    requires raw.id.Some? && raw.projectId.Some?
    requires raw.dueDate.None? || raw.dueDate == Some("") || parse(raw.dueDate.value).None?
    ensures FromApi(raw, parse).Success?
    ensures FromApi(raw, parse).value.due.None?
  {
  }

  /** The record the API would send for a task, given how it writes dates. */
  function ToRaw(t: Task, format: Time -> string): RawTask {
    RawTask(Some(t.id), Some(t.projectId), Some(t.title), t.content,
            if t.due.Some? then Some(format(t.due.value)) else None,
            Some(t.priority), Some(t.isAllDay), Some(t.status), t.parentId)
  }

  /** Parsing a complete record gives the task back, whenever the date
      reader inverts the date writer. */
  lemma FromApiRoundTrip(t: Task, format: Time -> string, parse: DateParser)
    requires t.due.Some? ==> format(t.due.value) != "" && parse(format(t.due.value)) == t.due
    ensures FromApi(ToRaw(t, format), parse) == Success(t)
  {
  }

  // -------------------------------------------------------------- projects

  /** `TickTickProject`. */
  datatype Project = Project(id: string, name: string, color: Option<string>, tasks: seq<Task>) {

    /** `task_count`. */
    function TaskCount(): nat {
      |tasks|
    }

    /** `overdue_count`: tasks due strictly before `now`. */
    function OverdueCount(now: Time): (n: nat)
      ensures n <= TaskCount()
      ensures n == |IndicesWhere(tasks, Overdue(now))|
    {
      CountWhereIsIndexCount(tasks, Overdue(now));
      CountWhere(tasks, Overdue(now))
    }

    /** `due_today_count`: tasks due on the calendar day of `now`. */
    function DueTodayCount(now: Time): (n: nat)
      ensures n <= TaskCount()
      ensures n == |IndicesWhere(tasks, DueToday(now))|
    {
      CountWhereIsIndexCount(tasks, DueToday(now));
      CountWhere(tasks, DueToday(now))
    }
  }

  /** The conditions the integration counts tasks by. */
  datatype Criterion = Overdue(now: Time) | DueToday(now: Time) | HasDueDate

  predicate Holds(c: Criterion, t: Task) {
    match c
    case Overdue(now) => t.due.Some? && t.due.value < now
    case DueToday(now) => t.due.Some? && Day(t.due.value) == Day(now)
    case HasDueDate => t.due.Some?
  }

  /** A task without a due date satisfies none of the criteria. */
  lemma UndatedNeverCounted(c: Criterion, t: Task)
    requires t.due.None?
    ensures !Holds(c, t)
  {
  }

  /** `sum(1 for t in ts if c(t))`. */
  function CountWhere(ts: seq<Task>, c: Criterion): (n: nat)
    ensures n <= |ts|
  {
    if |ts| == 0 then 0
    else CountWhere(ts[..|ts| - 1], c) + (if Holds(c, ts[|ts| - 1]) then 1 else 0)
  }

  /** The positions of `ts` that satisfy `c`. */
  function IndicesWhere(ts: seq<Task>, c: Criterion): set<int> {
    set i | 0 <= i < |ts| && Holds(c, ts[i])
  }

  /** The running count equals the number of satisfying positions. */
  lemma {:induction false} CountWhereIsIndexCount(ts: seq<Task>, c: Criterion)
    ensures CountWhere(ts, c) == |IndicesWhere(ts, c)|
  {
    if |ts| > 0 {
      var n := |ts| - 1;
      CountWhereIsIndexCount(ts[..n], c);
      IndicesWhereSnoc(ts, c);
    }
  }

  /** The satisfying positions of `ts` are those of all but its last task,
      plus the last position when that task satisfies `c`. */
  lemma IndicesWhereSnoc(ts: seq<Task>, c: Criterion)
    requires |ts| > 0
    ensures var n := |ts| - 1;
            && n !in IndicesWhere(ts[..n], c)
            && IndicesWhere(ts, c) == IndicesWhere(ts[..n], c) + (if Holds(c, ts[n]) then {n} else {})
  {
    var n := |ts| - 1;
    var front := ts[..n];
    var lhs := IndicesWhere(ts, c);
    var rhs := IndicesWhere(front, c) + (if Holds(c, ts[n]) then {n} else {});
    forall i | i in lhs ensures i in rhs {
      if i < n {
        assert front[i] == ts[i];
      }
    }
    forall i | i in rhs ensures i in lhs {
      if i < n {
        assert front[i] == ts[i];
      }
    }
  }

  // -------------------------------------------------------------- snapshot

  /** `TickTickData`: projects by id and the flattened active tasks by id,
      both in insertion order. */
  datatype Snapshot = Snapshot(projects: OrderedMap<string, Project>, tasks: OrderedMap<string, Task>)

  /** Both dictionaries are well formed and each project and each task is
      filed under its own id. */
  ghost predicate WellFormed(s: Snapshot) {
    && s.projects.Valid()
    && s.tasks.Valid()
    && (forall k :: k in s.projects.entries ==> s.projects.entries[k].id == k)
    && (forall k :: k in s.tasks.entries ==> s.tasks.entries[k].id == k)
  }

  /** `data.projects.get(project_id)` when there is data at all. */
  function LookupProject(data: Option<Snapshot>, projectId: string): (p: Option<Project>)
    ensures p.Some? <==> data.Some? && projectId in data.value.projects.entries
    ensures p.Some? ==> p.value == data.value.projects.entries[projectId]
  {
    if data.Some? then data.value.projects.Get(projectId) else None
  }

  /** In a well-formed snapshot the tasks iterate with pairwise distinct ids. */
  lemma TaskValuesDistinct(s: Snapshot)
    requires WellFormed(s)
    ensures forall i, j :: 0 <= i < j < |s.tasks.Values()| ==> s.tasks.Values()[i].id != s.tasks.Values()[j].id
  {
  }
}

=== FILE: ordered_maps.dfy ===
/** Insertion-ordered dictionaries, as Python's `dict` behaves: iteration
    follows first insertion, and assigning to an existing key replaces its
    value without moving it. */
module OrderedMaps {
  import opened Wrappers

  datatype OrderedMap<K(!new), V> = OrderedMap(order: seq<K>, entries: map<K, V>) {

    /** `order` lists every key exactly once. */
    ghost predicate Valid() {
      && (forall i, j :: 0 <= i < j < |order| ==> order[i] != order[j])
      && (forall k :: k in entries <==> k in order)
    }

    /** `d.get(k)`. */
    function Get(k: K): (r: Option<V>)
      ensures r.Some? <==> k in entries
      ensures r.Some? ==> r.value == entries[k]
    {
      if k in entries then Some(entries[k]) else None
    }

    /** `d[k] = v`. */
    function Put(k: K, v: V): (m: OrderedMap<K, V>)
      requires Valid()
      ensures m.Valid()
      ensures m.entries.Keys == entries.Keys + {k}
      ensures m.entries[k] == v
      ensures forall j :: j in entries && j != k ==> m.entries[j] == entries[j]
      ensures |order| <= |m.order| && m.order[..|order|] == order
      ensures |order| == 0 ==> m.order == [k]
    {
      if k in entries then OrderedMap(order, entries[k := v])
      else OrderedMap(order + [k], entries[k := v])
    }

    /** `list(d.values())`. */
    function Values(): (vs: seq<V>)
      requires Valid()
      ensures |vs| == |order|
      ensures forall i :: 0 <= i < |order| ==> order[i] in entries && vs[i] == entries[order[i]]
    {
      seq(|order|, i requires 0 <= i < |order| && order[i] in entries => entries[order[i]])
    }
  }

  function Empty<K(!new), V>(): (m: OrderedMap<K, V>)
    ensures m.Valid()
    ensures m.entries == map[] && m.order == []
  {
    OrderedMap([], map[])
  }

  /** The keys of a list of key/value pairs. */
  function KeysOf<K, V>(kvs: seq<(K, V)>): set<K> {
    set i | 0 <= i < |kvs| :: kvs[i].0
  }

  /** No later pair in `kvs` has the key of pair `i`. */
  predicate LastWithKey<K(==), V>(kvs: seq<(K, V)>, i: int)
    requires 0 <= i < |kvs|
  {
    forall j :: i < j < |kvs| ==> kvs[j].0 != kvs[i].0
  }

  /** Assigns every pair of `kvs` in turn: `for k, v in kvs: d[k] = v`. */
  function PutAll<K(!new), V>(m: OrderedMap<K, V>, kvs: seq<(K, V)>): (r: OrderedMap<K, V>)
    requires m.Valid()
    ensures r.Valid()
    ensures r.entries.Keys == m.entries.Keys + KeysOf(kvs)
    ensures |m.order| <= |r.order| && r.order[..|m.order|] == m.order
    decreases |kvs|
  {
    if |kvs| == 0 then m
    else
      KeysOfCons(kvs);
      PutAll(m.Put(kvs[0].0, kvs[0].1), kvs[1..])
  }

  lemma KeysOfCons<K, V>(kvs: seq<(K, V)>)
    requires 0 < |kvs|
    ensures KeysOf(kvs) == {kvs[0].0} + KeysOf(kvs[1..])
  {
    forall k | k in KeysOf(kvs) ensures k in {kvs[0].0} + KeysOf(kvs[1..]) {
      var i :| 0 <= i < |kvs| && kvs[i].0 == k;
      if i > 0 {
        assert kvs[1..][i - 1].0 == k;
      }
    }
    forall k | k in KeysOf(kvs[1..]) ensures k in KeysOf(kvs) {
      var i :| 0 <= i < |kvs[1..]| && kvs[1..][i].0 == k;
      assert kvs[i + 1].0 == k;
    }
  }

  /** Keys that `kvs` does not mention keep their values. */
  lemma {:induction false} PutAllUntouched<K(!new), V>(m: OrderedMap<K, V>, kvs: seq<(K, V)>, k: K)
    requires m.Valid() && k in m.entries && k !in KeysOf(kvs)
    ensures PutAll(m, kvs).entries[k] == m.entries[k]
    decreases |kvs|
  {
    if 0 < |kvs| {
      KeysOfCons(kvs);
      PutAllUntouched(m.Put(kvs[0].0, kvs[0].1), kvs[1..], k);
    }
  }

  /** The last pair with a given key decides its value. */
  lemma {:induction false} PutAllLastWins<K(!new), V>(m: OrderedMap<K, V>, kvs: seq<(K, V)>, i: int)
    requires m.Valid() && 0 <= i < |kvs| && LastWithKey(kvs, i)
    ensures PutAll(m, kvs).entries[kvs[i].0] == kvs[i].1
    decreases |kvs|
  {
    KeysOfCons(kvs);
    var m' := m.Put(kvs[0].0, kvs[0].1);
    if i == 0 {
      forall j | 0 <= j < |kvs[1..]| ensures kvs[1..][j].0 != kvs[0].0 {
        assert kvs[1..][j] == kvs[j + 1];
      }
      PutAllUntouched(m', kvs[1..], kvs[0].0);
    } else {
      assert LastWithKey(kvs[1..], i - 1) by {
        forall j | i - 1 < j < |kvs[1..]| ensures kvs[1..][j].0 != kvs[1..][i - 1].0 {
          assert kvs[1..][j] == kvs[j + 1];
        }
      }
      PutAllLastWins(m', kvs[1..], i - 1);
    }
  }

  /** Every value of the result was assigned by some pair or was there before. */
  lemma {:induction false} PutAllValuesFrom<K(!new), V>(m: OrderedMap<K, V>, kvs: seq<(K, V)>, k: K)
    requires m.Valid() && (k in m.entries || k in KeysOf(kvs))
    ensures k in PutAll(m, kvs).entries
    ensures (k, PutAll(m, kvs).entries[k]) in kvs || (k in m.entries && PutAll(m, kvs).entries[k] == m.entries[k])
    decreases |kvs|
  {
    if 0 < |kvs| {
      var m' := m.Put(kvs[0].0, kvs[0].1);
      KeysOfCons(kvs);
      PutAllValuesFrom(m', kvs[1..], k);
      var v := PutAll(m, kvs).entries[k];
      if (k, v) in kvs[1..] {
        assert (k, v) in kvs;
      }
    }
  }

  /** A list without repetitions has as many distinct elements as entries. */
  lemma {:induction false} DistinctCardinality<K>(s: seq<K>)
    requires forall i, j :: 0 <= i < j < |s| ==> s[i] != s[j]
    ensures |set k | k in s| == |s|
  {
    if |s| > 0 {
      var t := s[..|s| - 1];
      DistinctCardinality(t);
      assert (set k | k in s) == (set k | k in t) + {s[|s| - 1]};
      assert s[|s| - 1] !in (set k | k in t);
    }
  }

  /** A valid ordered map iterates over as many values as it has keys. */
  lemma LengthIsSize<K(!new), V>(m: OrderedMap<K, V>)
    requires m.Valid()
    ensures |m.order| == |m.entries|
  {
    DistinctCardinality(m.order);
    assert m.entries.Keys == set k | k in m.order;
  }
}

=== FILE: sensor.dfy ===
/** The per-project sensors (custom_components/ticktick/sensor.py): which
    projects get a sensor, and what a sensor shows for its project. */
module Sensor {
  import opened Wrappers
  import opened Clock
  import opened OrderedMaps
  import opened Model

  const MissingProjectName: string := "Unknown Project"

  /** No id occurs twice. */
  predicate Distinct(ids: seq<string>) {
    forall i, j :: 0 <= i < j < |ids| ==> ids[i] != ids[j]
  }

  // ------------------------------------------------------ sensor creation

  /** The sensors made at setup: one per project, in project order. */
  function InitialSensors(data: Option<Snapshot>): (ids: seq<string>)
    requires data.Some? ==> WellFormed(data.value)
    ensures data.None? ==> ids == []
    ensures data.Some? ==> |ids| == |data.value.projects.entries|
    ensures data.Some? ==> forall k :: k in data.value.projects.entries ==>
              exists i :: 0 <= i < |ids| && ids[i] == data.value.projects.entries[k].id
    ensures Distinct(ids)
  {
    if data.None? then []
    else
      var ps := data.value.projects;
      var vs := ps.Values();
      LengthIsSize(ps);
      var ids := seq(|ps.order|, i requires 0 <= i < |ps.order| => vs[i].id);
      assert forall k :: k in ps.entries ==> exists i :: 0 <= i < |ids| && ids[i] == ps.entries[k].id by {
        forall k | k in ps.entries ensures exists i :: 0 <= i < |ids| && ids[i] == ps.entries[k].id {
          var i :| 0 <= i < |ps.order| && ps.order[i] == k;
          assert ids[i] == vs[i].id;
        }
      }
      assert forall i :: 0 <= i < |ids| ==> ids[i] == ps.order[i] by {
        forall i | 0 <= i < |ids| ensures ids[i] == ps.order[i] {
          assert ps.order[i] in ps.entries && vs[i] == ps.entries[ps.order[i]];
        }
      }
      ids
  }

  /** The keys of `keys`, in order, that are not in `tracked`. */
  function Untracked(tracked: seq<string>, keys: seq<string>): (added: seq<string>)
    ensures forall k :: k in added <==> k in keys && k !in tracked
    ensures Distinct(keys) ==> Distinct(added)
    ensures (forall k :: k in keys ==> k in tracked) ==> added == []
  {
    if |keys| == 0 then []
    else
      var rest := Untracked(tracked, keys[1..]);
      assert Distinct(keys) ==> keys[0] !in keys[1..];
      if keys[0] in tracked then rest else [keys[0]] + rest
  }

  /** `async_check_new_projects`: the project ids that get a new sensor —
      every snapshot project id no sensor tracks yet, in snapshot order. */
  function CheckNewProjects(tracked: seq<string>, data: Option<Snapshot>): (added: seq<string>)
    requires data.Some? ==> data.value.projects.Valid()
    ensures data.None? ==> added == []
    ensures data.Some? ==> forall k :: k in added <==> k in data.value.projects.entries && k !in tracked
    ensures Distinct(added)
    ensures data.Some? && (forall k :: k in data.value.projects.entries ==> k in tracked) ==> added == []
  {
    if data.None? then [] else Untracked(tracked, data.value.projects.order)
  }

  /** After the check every snapshot project has exactly one sensor, and
      the sensors tracked before are all kept. */
  lemma {:induction false} OneSensorPerProject(tracked: seq<string>, data: Option<Snapshot>)
    requires data.Some? && data.value.projects.Valid()
    requires Distinct(tracked)
    ensures var all := tracked + CheckNewProjects(tracked, data);
            && all[..|tracked|] == tracked
            && Distinct(all)
            && forall k :: k in data.value.projects.entries ==> k in all
  {
    var added := CheckNewProjects(tracked, data);
    var all := tracked + added;
    forall i, j | 0 <= i < j < |all| ensures all[i] != all[j] {
      if j < |tracked| {
        assert all[i] == tracked[i] && all[j] == tracked[j];
      } else if i >= |tracked| {
        assert all[i] == added[i - |tracked|] && all[j] == added[j - |tracked|];
      } else {
        assert all[i] == tracked[i] && all[i] in tracked;
        assert all[j] == added[j - |tracked|] && all[j] in added;
      }
    }
    forall k | k in data.value.projects.entries ensures k in all {
      if k !in tracked {
        assert k in added;
      }
    }
  }

  /** Setup followed by the first check: every project keeps exactly one
      sensor, and the check adds none, since setup already made them all. */
  lemma {:induction false} SetupThenCheck(data: Option<Snapshot>)
    requires data.Some? && WellFormed(data.value)
    ensures CheckNewProjects(InitialSensors(data), data) == []
    ensures Distinct(InitialSensors(data))
    ensures forall k :: k in data.value.projects.entries ==> k in InitialSensors(data)
  {
    var ids := InitialSensors(data);
    var ps := data.value.projects.entries;
    forall k | k in ps ensures k in ids {
      var i :| 0 <= i < |ids| && ids[i] == ps[k].id;
    }
    OneSensorPerProject(ids, data);
  }

  /** A second check right after the first adds nothing. */
  lemma SecondCheckAddsNothing(tracked: seq<string>, data: Option<Snapshot>)
    requires data.Some? ==> data.value.projects.Valid()
    ensures CheckNewProjects(tracked + CheckNewProjects(tracked, data), data) == []
  {
    var all := tracked + CheckNewProjects(tracked, data);
    if data.Some? {
      forall k | k in data.value.projects.entries ensures k in all {
        if k !in tracked {
          assert k in CheckNewProjects(tracked, data);
        }
      }
    }
  }

  // ---------------------------------------------------------- sensor view

  /** `name`: the project's name, or a placeholder once it is gone. */
  function SensorName(data: Option<Snapshot>, projectId: string): (name: string)
    ensures LookupProject(data, projectId).Some? ==> name == LookupProject(data, projectId).value.name
    ensures LookupProject(data, projectId).None? ==> name == MissingProjectName
  {
    match LookupProject(data, projectId)
    case Some(p) => p.name
    case None => MissingProjectName
  }

  /** `native_value`: the project's task count, or 0 once it is gone. */
  function NativeValue(data: Option<Snapshot>, projectId: string): (n: nat)
    ensures LookupProject(data, projectId).Some? ==> n == |LookupProject(data, projectId).value.tasks|
    ensures LookupProject(data, projectId).None? ==> n == 0
  {
    match LookupProject(data, projectId)
    case Some(p) => p.TaskCount()
    case None => 0
  }

  /** `available`: the last refresh succeeded and the project still exists. */
  function Available(lastUpdateSuccess: bool, data: Option<Snapshot>, projectId: string): (b: bool)
    ensures b <==> lastUpdateSuccess && data.Some? && projectId in data.value.projects.entries
  {
    lastUpdateSuccess && LookupProject(data, projectId).Some?
  }

  /** One entry of the `tasks` attribute. */
  datatype TaskAttributes = TaskAttributes(id: string, title: string, due: Option<Time>, priority: string, isAllDay: bool)

  /** `extra_state_attributes` of a sensor whose project exists. */
  datatype Attributes = Attributes(
    projectId: string, projectName: string, taskCount: nat, overdueCount: nat,
    dueTodayCount: nat, color: Option<string>, tasks: seq<TaskAttributes>)

  /** The attribute entry of one task, its priority read by name. */
  function TaskEntry(t: Task): TaskAttributes {
    TaskAttributes(t.id, t.title, t.due, PriorityName(t.priority), t.isAllDay)
  }

  /** `extra_state_attributes`: nothing once the project is gone; otherwise
      the project's details, its counts at `now` and one entry per task. */
  function SensorAttributes(data: Option<Snapshot>, projectId: string, now: Time): (r: Option<Attributes>)
    ensures r.None? <==> LookupProject(data, projectId).None?
    ensures r.Some? ==>
              var p := LookupProject(data, projectId).value;
              && r.value.projectId == p.id && r.value.projectName == p.name && r.value.color == p.color
              && r.value.taskCount == |r.value.tasks| == |p.tasks|
              && r.value.overdueCount == p.OverdueCount(now) <= r.value.taskCount
              && r.value.dueTodayCount == p.DueTodayCount(now) <= r.value.taskCount
              && forall i :: 0 <= i < |p.tasks| ==>
                   && r.value.tasks[i].id == p.tasks[i].id
                   && r.value.tasks[i].title == p.tasks[i].title
                   && r.value.tasks[i].due == p.tasks[i].due
                   && r.value.tasks[i].isAllDay == p.tasks[i].isAllDay
                   && r.value.tasks[i].priority == PriorityName(p.tasks[i].priority)
                   && r.value.tasks[i].priority in PriorityMap.Values
  {
    match LookupProject(data, projectId)
    case None => None
    case Some(p) =>
      var entries := seq(|p.tasks|, i requires 0 <= i < |p.tasks| => TaskEntry(p.tasks[i]));
      assert PriorityMap.Values == {"none", "low", "medium", "high"} by {
        assert PriorityMap[PriorityNone] == "none" && PriorityMap[PriorityLow] == "low";
        assert PriorityMap[PriorityMedium] == "medium" && PriorityMap[PriorityHigh] == "high";
      }
      Some(Attributes(p.id, p.name, p.TaskCount(), p.OverdueCount(now), p.DueTodayCount(now), p.color, entries))
  }

  /** A sensor whose project has disappeared shows every fallback at once. */
  lemma MissingProjectFallbacks(lastUpdateSuccess: bool, data: Option<Snapshot>, projectId: string, now: Time)
    requires data.None? || projectId !in data.value.projects.entries
    ensures SensorName(data, projectId) == MissingProjectName
    ensures NativeValue(data, projectId) == 0
    ensures !Available(lastUpdateSuccess, data, projectId)
    ensures SensorAttributes(data, projectId, now).None?
  {
  }

  /** An available sensor shows its project: its name, its task count as
      the state, and attributes that agree with that state. */
  lemma AvailableShowsProject(lastUpdateSuccess: bool, data: Option<Snapshot>, projectId: string, now: Time)
    requires Available(lastUpdateSuccess, data, projectId)
    ensures SensorName(data, projectId) == data.value.projects.entries[projectId].name
    ensures SensorAttributes(data, projectId, now).Some?
    ensures NativeValue(data, projectId) == SensorAttributes(data, projectId, now).value.taskCount
  {
  }
}

=== FILE: services.dfy ===
/** The service handlers (custom_components/ticktick/services.py): the
    priority names they accept, the default project `create_task` falls
    back to, and which API call each handler makes. */
module Services {
  import opened Wrappers
  import opened Text
  import opened OrderedMaps
  import opened Model
  import Api

  /** `PRIORITY_TO_INT`: priority name to its ordinal. */
  const PriorityToInt: map<string, int> :=
    map["none" := PriorityNone, "low" := PriorityLow, "medium" := PriorityMedium, "high" := PriorityHigh]

  /** The two priority tables invert each other on their four entries. */
  lemma PriorityTablesInverse()
    ensures forall name :: name in PriorityToInt ==> PriorityToInt[name] in PriorityMap && PriorityMap[PriorityToInt[name]] == name
    ensures forall p :: p in PriorityMap ==> PriorityMap[p] in PriorityToInt && PriorityToInt[PriorityMap[p]] == p
  {
    assert PriorityMap[PriorityNone] == "none" && PriorityMap[PriorityLow] == "low";
    assert PriorityMap[PriorityMedium] == "medium" && PriorityMap[PriorityHigh] == "high";
  }

  /** `PRIORITY_TO_INT.get(call.data.get("priority", "none"), 0)` in
      `handle_create_task`: a missing or unknown name gives priority none. */
  function CreatePriority(name: Option<string>): (p: int)
    ensures p in PriorityMap
    ensures name.Some? && name.value in PriorityToInt ==> PriorityName(p) == name.value
    ensures name.None? || name.value !in PriorityToInt ==> p == PriorityNone
  {
    var given := name.GetOr("none");
    if given in PriorityToInt then PriorityToInt[given] else PriorityNone
  }

  /** `PRIORITY_TO_INT.get(priority_str) if priority_str else None` in
      `handle_update_task`: no ordinal unless a known name is given. */
  function UpdatePriority(name: Option<string>): (p: Option<int>)
    ensures p.Some? <==> Api.Truthy(name) && name.value in PriorityToInt
    ensures p.Some? ==> p.value in PriorityMap && PriorityName(p.value) == name.value
  {
    if Api.Truthy(name) && name.value in PriorityToInt then Some(PriorityToInt[name.value]) else None
  }

  // ------------------------------------------------------- default project

  /** Position of the first project whose lower-cased name is "inbox". */
  function FindInbox(ps: seq<Project>): (i: Option<nat>)
    ensures i.None? <==> forall j :: 0 <= j < |ps| ==> Lower(ps[j].name) != "inbox"
    ensures i.Some? ==> i.value < |ps| && Lower(ps[i.value].name) == "inbox"
    ensures i.Some? ==> forall j :: 0 <= j < i.value ==> Lower(ps[j].name) != "inbox"
  {
    if |ps| == 0 then None
    else if Lower(ps[0].name) == "inbox" then Some(0)
    else
      match FindInbox(ps[1..])
      case None => None
      case Some(k) => Some(k + 1)
  }

  /** The project `handle_create_task` files a task under: the requested
      one when given; otherwise, with data, the inbox or failing that the
      first project. `None` means no usable (non-empty) id was found. */
  function DefaultProject(requested: Option<string>, data: Option<Snapshot>): (r: Option<string>)
    requires data.Some? ==> data.value.projects.Valid()
    ensures r.Some? ==> r.value != ""
    ensures Api.Truthy(requested) ==> r == requested
    ensures !Api.Truthy(requested) && data.None? ==> r.None?
    ensures !Api.Truthy(requested) && r.Some? ==>
              exists j :: 0 <= j < |data.value.projects.Values()| && data.value.projects.Values()[j].id == r.value
    ensures !Api.Truthy(requested) && data.Some? ==>
              var ps := data.value.projects.Values();
              var inbox := FindInbox(ps);
              && (inbox.Some? && ps[inbox.value].id != "" ==> r == Some(ps[inbox.value].id))
              && (inbox.None? || ps[inbox.value].id == "" ==>
                    r == if |ps| > 0 && ps[0].id != "" then Some(ps[0].id) else None)
  {
    if Api.Truthy(requested) then requested
    else if data.None? then None
    else
      var ps := data.value.projects.Values();
      var inbox := FindInbox(ps);
      if inbox.Some? && ps[inbox.value].id != "" then Some(ps[inbox.value].id)
      else if |ps| > 0 && ps[0].id != "" then Some(ps[0].id)
      else None
  }

  // -------------------------------------------------------------- handlers

  /** The coordinator a handler finds attached to a config entry, reduced to
      its current data. */
  datatype Attached = Attached(data: Option<Snapshot>)

  /** What a service call amounts to: nothing when the integration is not
      set up or no project could be chosen; otherwise one API call, followed
      by a refresh request when that call succeeded. A failed call is only
      logged. */
  datatype Outcome = NotSetUp | NoProject | Invoked(call: Api.Call, refreshRequested: bool)

  datatype CreateTaskRequest = CreateTaskRequest(
    title: string, projectId: Option<string>, content: Option<string>,
    dueDate: Option<string>, priority: Option<string>, allDay: bool)

  datatype UpdateTaskRequest = UpdateTaskRequest(
    taskId: string, projectId: string, title: Option<string>, content: Option<string>,
    dueDate: Option<string>, priority: Option<string>)

  /** `handle_create_task`; `succeeded` is whether the API accepted the call. */
  function HandleCreateTask(coordinator: Option<Attached>, req: CreateTaskRequest, succeeded: bool): (r: Outcome)
    requires coordinator.Some? && coordinator.value.data.Some? ==> coordinator.value.data.value.projects.Valid()
    ensures r.NotSetUp? <==> coordinator.None?
    ensures r.NoProject? <==> coordinator.Some? && DefaultProject(req.projectId, coordinator.value.data).None?
    ensures r.Invoked? ==> r.refreshRequested == succeeded
    ensures r.Invoked? ==> r.call.verb == Api.Post && r.call.endpoint == "/task" && r.call.body.Some?
    ensures r.Invoked? ==>
              var body := r.call.body.value;
              && "title" in body && body["title"] == Api.JString(req.title)
              && "projectId" in body
              && body["projectId"] == Api.JString(DefaultProject(req.projectId, coordinator.value.data).value)
              && "priority" in body && body["priority"] == Api.JInt(CreatePriority(req.priority))
              && ("content" in body <==> Api.Truthy(req.content))
              && (Api.Truthy(req.content) ==> body["content"] == Api.JString(req.content.value))
              && ("dueDate" in body <==> Api.Truthy(req.dueDate))
              && ("isAllDay" in body <==> Api.Truthy(req.dueDate))
              && (Api.Truthy(req.dueDate) ==>
                    body["dueDate"] == Api.JString(req.dueDate.value) && body["isAllDay"] == Api.JBool(req.allDay))
              && body.Keys <= {"title", "projectId", "priority", "content", "dueDate", "isAllDay"}
  {
    if coordinator.None? then NotSetUp
    else
      match DefaultProject(req.projectId, coordinator.value.data)
      case None => NoProject
      case Some(projectId) =>
        var call := Api.CreateTaskCall(req.title, projectId, req.content, req.dueDate,
                                       CreatePriority(req.priority), req.allDay);
        Invoked(call, succeeded)
  }

  /** `handle_update_task`. */
  function HandleUpdateTask(coordinator: Option<Attached>, req: UpdateTaskRequest, succeeded: bool): (r: Outcome)
    ensures r.NotSetUp? <==> coordinator.None?
    ensures !r.NoProject?
    ensures r.Invoked? ==> r.refreshRequested == succeeded
    ensures r.Invoked? ==> r.call.verb == Api.Post && r.call.endpoint == "/task/" + req.taskId && r.call.body.Some?
    ensures r.Invoked? ==>
              var body := r.call.body.value;
              && "id" in body && body["id"] == Api.JString(req.taskId)
              && "projectId" in body && body["projectId"] == Api.JString(req.projectId)
              && ("priority" in body <==> UpdatePriority(req.priority).Some?)
              && (UpdatePriority(req.priority).Some? ==> body["priority"] == Api.JInt(UpdatePriority(req.priority).value))
              && ("title" in body <==> req.title.Some?)
              && (req.title.Some? ==> body["title"] == Api.JString(req.title.value))
              && ("content" in body <==> req.content.Some?)
              && (req.content.Some? ==> body["content"] == Api.JString(req.content.value))
              && ("dueDate" in body <==> req.dueDate.Some?)
              && (req.dueDate.Some? ==> body["dueDate"] == Api.JString(req.dueDate.value))
              && body.Keys <= {"id", "projectId", "title", "content", "dueDate", "priority"}
  {
    if coordinator.None? then NotSetUp
    else
      var call := Api.UpdateTaskCall(req.taskId, req.projectId, req.title, req.content, req.dueDate,
                                     UpdatePriority(req.priority));
      Invoked(call, succeeded)
  }

  /** An update without a priority name leaves the priority out of the body. */
  lemma UpdateWithoutPriorityOmitsIt(coordinator: Attached, req: UpdateTaskRequest, succeeded: bool)
    requires req.priority.None? || req.priority == Some("")
    ensures HandleUpdateTask(Some(coordinator), req, succeeded).Invoked?
    ensures "priority" !in HandleUpdateTask(Some(coordinator), req, succeeded).call.body.value
  {
  }

  /** `handle_complete_task`. */
  function HandleCompleteTask(coordinator: Option<Attached>, projectId: string, taskId: string, succeeded: bool): (r: Outcome)
    ensures r.NotSetUp? <==> coordinator.None?
    ensures !r.NoProject?
    ensures r.Invoked? ==> r.refreshRequested == succeeded
    ensures r.Invoked? ==> r.call.verb == Api.Post && r.call.body.None?
    ensures r.Invoked? ==> r.call.endpoint == "/project/" + projectId + "/task/" + taskId + "/complete"
  {
    if coordinator.None? then NotSetUp
    else Invoked(Api.CompleteTaskCall(projectId, taskId), succeeded)
  }

  /** `handle_delete_task`. */
  function HandleDeleteTask(coordinator: Option<Attached>, projectId: string, taskId: string, succeeded: bool): (r: Outcome)
    ensures r.NotSetUp? <==> coordinator.None?
    ensures !r.NoProject?
    ensures r.Invoked? ==> r.refreshRequested == succeeded
    ensures r.Invoked? ==> r.call.verb == Api.Delete && r.call.body.None?
    ensures r.Invoked? ==> r.call.endpoint == "/project/" + projectId + "/task/" + taskId
  {
    if coordinator.None? then NotSetUp
    else Invoked(Api.DeleteTaskCall(projectId, taskId), succeeded)
  }

  /** `handle_create_subtask`. */
  function HandleCreateSubtask(coordinator: Option<Attached>, parentTaskId: string, projectId: string,
                               title: string, content: Option<string>, succeeded: bool): (r: Outcome)
    ensures r.NotSetUp? <==> coordinator.None?
    ensures !r.NoProject?
    ensures r.Invoked? ==> r.refreshRequested == succeeded
    ensures r.Invoked? ==> r.call.verb == Api.Post && r.call.endpoint == "/task" && r.call.body.Some?
    ensures r.Invoked? ==>
              var body := r.call.body.value;
              && "parentId" in body && body["parentId"] == Api.JString(parentTaskId)
              && "projectId" in body && body["projectId"] == Api.JString(projectId)
              && "title" in body && body["title"] == Api.JString(title)
              && ("content" in body <==> Api.Truthy(content))
              && (Api.Truthy(content) ==> body["content"] == Api.JString(content.value))
              && body.Keys <= {"title", "projectId", "parentId", "content"}
  {
    if coordinator.None? then NotSetUp
    else Invoked(Api.CreateSubtaskCall(parentTaskId, projectId, title, content), succeeded)
  }

  /** A set-up integration with no requested project and no projects at all
      makes no API call from `create_task`. */
  lemma CreateWithoutAnyProjectAborts(req: CreateTaskRequest, s: Snapshot, succeeded: bool)
    requires !Api.Truthy(req.projectId)
    requires s.projects.Valid() && |s.projects.order| == 0
    ensures HandleCreateTask(Some(Attached(Some(s))), req, succeeded) == NoProject
  {
  }
}

=== FILE: text.dfy ===
/** String helpers standing in for Python's `str(int)`, `str.lower`,
    `str.capitalize`, `str.join` and `str.split` on ASCII text. */
module Text {

  predicate IsDigit(c: char) {
    '0' <= c <= '9'
  }

  predicate AllDigits(s: string) {
    forall i :: 0 <= i < |s| ==> IsDigit(s[i])
  }

  function DigitChar(d: nat): (c: char)
    requires d < 10
    ensures IsDigit(c)
  {
    (('0' as int) + d) as char
  }

  function DigitValue(c: char): nat
    requires IsDigit(c)
  {
    (c as int) - ('0' as int)
  }

  /** The decimal rendering of `n`, as an f-string renders an int. */
  function DecimalString(n: nat): (s: string)
    ensures 1 <= |s|
    ensures AllDigits(s)
    ensures n < 10 <==> |s| == 1
  {
    if n < 10 then [DigitChar(n)] else DecimalString(n / 10) + [DigitChar(n % 10)]
  }

  /** The number a string of decimal digits denotes. */
  function DecimalValue(s: string): nat
    requires AllDigits(s)
  {
    if |s| == 0 then 0 else 10 * DecimalValue(s[..|s| - 1]) + DigitValue(s[|s| - 1])
  }

  /** Reading back a rendered number gives the number. */
  lemma {:induction false} DecimalRoundTrip(n: nat)
    ensures DecimalValue(DecimalString(n)) == n
  {
    var s := DecimalString(n);
    if n < 10 {
      assert s == [DigitChar(n)];
      assert s[..0] == [];
    } else {
      DecimalRoundTrip(n / 10);
      assert s[..|s| - 1] == DecimalString(n / 10);
    }
  }

  predicate StartsWith(s: string, prefix: string) {
    |prefix| <= |s| && s[..|prefix|] == prefix
  }

  predicate EndsWith(s: string, suffix: string) {
    |suffix| <= |s| && s[|s| - |suffix|..] == suffix
  }

  function LowerChar(c: char): char {
    if 'A' <= c <= 'Z' then ((c as int) + 32) as char else c
  }

  function UpperChar(c: char): char {
    if 'a' <= c <= 'z' then ((c as int) - 32) as char else c
  }

  /** `s.lower()` restricted to ASCII letters. */
  function Lower(s: string): (r: string)
    ensures |r| == |s|
    ensures forall i :: 0 <= i < |s| ==> r[i] == LowerChar(s[i])
  {
    if |s| == 0 then "" else [LowerChar(s[0])] + Lower(s[1..])
  }

  /** `s.capitalize()` restricted to ASCII letters. */
  function Capitalize(s: string): string {
    if |s| == 0 then "" else [UpperChar(s[0])] + Lower(s[1..])
  }

  /** `sep.join(parts)`. */
  function Join(parts: seq<string>, sep: string): string {
    if |parts| == 0 then ""
    else if |parts| == 1 then parts[0]
    else parts[0] + sep + Join(parts[1..], sep)
  }

  /** Index of the first occurrence of `c` in `s`. */
  function IndexOf(s: string, c: char): (i: nat)
    requires c in s
    ensures i < |s| && s[i] == c
    ensures c !in s[..i]
  {
    if s[0] == c then 0 else 1 + IndexOf(s[1..], c)
  }

  /** `s.split(sep)` for a one-character separator. */
  function Split(s: string, sep: char): (parts: seq<string>)
    ensures 1 <= |parts|
    decreases |s|
  {
    if sep !in s then [s]
    else
      var i := IndexOf(s, sep);
      [s[..i]] + Split(s[i + 1..], sep)
  }

  lemma {:induction false} IndexOfAfterPrefix(a: string, c: char, b: string)
    requires c !in a
    ensures c in a + [c] + b
    ensures IndexOf(a + [c] + b, c) == |a|
  {
    var s := a + [c] + b;
    assert s[|a|] == c;
    if |a| > 0 {
      assert s[1..] == a[1..] + [c] + b;
      IndexOfAfterPrefix(a[1..], c, b);
    }
  }

  /** Splitting a joined list of lines gives the lines back, as long as no
      line holds the separator. */
  lemma {:induction false} SplitJoin(parts: seq<string>, sep: char)
    requires 1 <= |parts|
    requires forall i :: 0 <= i < |parts| ==> sep !in parts[i]
    ensures Split(Join(parts, [sep]), sep) == parts
  {
    if |parts| == 1 {
      assert Join(parts, [sep]) == parts[0];
    } else {
      var rest := Join(parts[1..], [sep]);
      var s := Join(parts, [sep]);
      assert s == parts[0] + [sep] + rest;
      IndexOfAfterPrefix(parts[0], sep, rest);
      assert s[..|parts[0]|] == parts[0];
      assert s[|parts[0]| + 1..] == rest;
      SplitJoin(parts[1..], sep);
    }
  }

  /** A joined list starts with its first element. */
  lemma {:induction false} JoinStartsWith(parts: seq<string>, sep: string)
    requires 1 <= |parts|
    ensures StartsWith(Join(parts, sep), parts[0])
  {
    if |parts| > 1 {
      assert Join(parts, sep) == parts[0] + (sep + Join(parts[1..], sep));
    }
  }

  /** A joined list ends with its last element. */
  lemma {:induction false} JoinEndsWith(parts: seq<string>, sep: string)
    requires 1 <= |parts|
    ensures EndsWith(Join(parts, sep), parts[|parts| - 1])
  {
    if |parts| > 1 {
      JoinEndsWith(parts[1..], sep);
      var rest := Join(parts[1..], sep);
      assert Join(parts, sep) == (parts[0] + sep) + rest;
      assert parts[1..][|parts[1..]| - 1] == parts[|parts| - 1];
    }
  }
}

=== FILE: wrappers.dfy ===
/** Optional values and fallible results, as the integration's Python code
    expresses them with `None` and with raised exceptions. */
module Wrappers {

  /** A value that may be absent (`None` in Python). */
  datatype Option<+T> = None | Some(value: T) {

    /** The value, or `default` when absent (`dict.get(key, default)`). */
    function GetOr(default: T): T {
      match this
      case Some(v) => v
      case None => default
    }
  }

  /** The outcome of a computation that may raise. */
  datatype Result<+T, +E> = Success(value: T) | Failure(error: E) {

    predicate IsFailure() {
      Failure?
    }

    function PropagateFailure<U>(): Result<U, E>
      requires Failure?
    {
      Failure(error)
    }

    function Extract(): T
      requires Success?
    {
      value
    }
  }
}
